=== FILE: README.md ===
# irk: module trust checks, in Dafny

This project models the part of the irk monitoring daemon that decides which
collector modules may be loaded, and proves properties of that model. It has
four parts.

- **The path-trust verifier** (`security/security.c`).
  - It reviews one `lstat` result: the owner and group must be root, and the entry must be neither group- nor world-writable.
  - It splits a path into the prefixes ending before each `/`, and checks them root first.
  - It follows a symbolic link by changing into it and checking the directory `getwd` then names.
  - It remembers passing paths in an optional cache.
- **The module-file walk** (`master/module.c`).
  - The entries fts returns for the modules directory are filtered by kind and by the `.irkmod` suffix.
  - Every remaining entry must pass the verifier, using one cache shared by the whole walk.
  - Accepted files are pushed on the front of a list. Any failure discards the list.
- **The string hash table** behind the cache (`common/strhash.c`): djb2, init, add, haskey and get. The search loops of add, haskey and get never advance along a chain, and the model keeps that behaviour.
- **The registration calls** a collector module makes on its `module` record (`collector/api.c`).

The model is functional. Datatypes stand for the C records. The filesystem is a
value `Sys`:
- `lstat` results keyed by absolute path;
- the directory `chdir` enters, keyed by absolute path;
- the directories where `getwd`, `open(".")` or `fchdir` fail.

The working directory and the cache are threaded through the checks as a `Proc`
value. The cache is a `set<string>`, or `None` for a NULL cache. Calls into the
C library that can fail, such as `malloc`, `strhash_init` and `fts_open`, become
boolean parameters. The fts stream is a sequence of entries.

Link recursion terminates because of `Security.Canonical`. It states that the
directory `chdir` reaches through a link has only absolute, link-free prefixes.
That is what `getwd` returns on POSIX systems, and a link loop makes `chdir`
fail with ELOOP. A `followed` flag carries this argument through the mutual
recursion. The source has no cycle guard, and the model adds none.

Modules:
- `Wrappers`: `Option`.
- `CTypes`: pointers and errno values.
- `StrHash`.
- `Security` and `SecurityProofs`.
- `ModuleLoad`.
- `CollectorApi`.

### Where the code and its comments part ways

The model follows the code in every case below.

- The verdict codes of `security_error_codes` are 0 to 5, not disjoint bits. An OR of them cannot be decoded (`SecurityProofs.VerdictsDoNotDecode`). `security_review_stat` never yields `S_ERROR` itself.
- The header of `security_review_stat` names the owner, group and world-writable checks. The code also checks group-writable.
- The header promises that every directory from `/` down is checked. A relative path never has `/` checked (`SecurityProofs.RelativePathSkipsRoot`). For the path `/` the root is checked twice (`SecurityProofs.RootCheckedTwice`).
- When a link passes, the cache remembers the link's own, unresolved path string. It also remembers the absolute prefixes of its target.
- The working directory is restored after a link has been followed, but not when `getwd` fails after a successful `chdir` (`SecurityProofs.GetwdFailureLeavesDirectory`, `SecurityProofs.LinkCallFailures`). It is not restored when `fchdir` fails either.
- `modules_load` returns -1 at once when a check fails, so it can return with the working directory moved into a link target (`ModuleLoad.ModulesLoadMeaning`).
- The kind filter of `modules_load_walkfiles` is the bit test `fts_info & (FTS_F | FTS_D)` on the enumeration values of fts.h. It lets through every kind except `FTS_DC`, `FTS_DNR` and `FTS_DP` (`ModuleLoad.KindConsidered`). Of those kinds, `FTS_NS`, `FTS_SL` and `FTS_W` are collected as files, next to `FTS_F` (`ModuleLoad.Collected`).
- The field of the module record named `inode` receives `st_dev`.
- `register_timer_callback` and `register_refresh_callback` ignore their time argument. The time is never validated or stored.
- `set_root_path` and `new_module_object` are stubs.

## Model

| member | source | states |
|---|---|---|
| Security.ReviewStat | security/security.c:197-229 | S_OK exactly when uid and gid are 0 and neither S_IWGRP nor S_IWOTH is set; each failing check contributes its code, so the result is never S_ERROR and at most 7, and its bits say which checks failed |
| Security.IsLink | security/security.c:77 | an entry is a link exactly when the file-type field of st_mode, bits 12 to 15, holds the link type 012 (octal) |
| Security.Lstat | security/security.c:59-66 | the empty path never stats; an absolute path is looked up as given, whatever the working directory; a stat that succeeds is the one stored for the path resolved from the working directory |
| Security.Cut | security/security.c:161-167 | the path checked at a slash: "/" for the slash at index 0, otherwise the prefix of the string before the slash, as long as the slash's index |
| Security.Remember | security/security.c:129-131 | storing the sigil under a path: a NULL cache stays NULL, any other gains exactly that path |
| Security.Cached | security/security.c:54 | the cache test: the cache is not NULL and remembering the path again would add nothing to it |
| Security.CStr | security/security.c:157-158 | the string the walk sees is a prefix of the buffer with no NUL, ending at the first NUL or at the end |
| Security.Split | security/security.c:157-172 | the walk over a C string always checks the whole string last; an absolute string is checked root first and every checked path is absolute |
| Security.Prefixes | security/security.c:178-194 | the paths checked for a path end with its C string and, for an absolute path, start at "/" and are all absolute |
| Security.CheckStat | security/security.c:47-139 | only a cached path costs no lstat, and a cached path is S_OK with no effect; an lstat failure is S_ERROR and a failed review returns its verdict, both with nothing changed; a non-link that passes review is S_OK after one lstat, with the path remembered and nothing else changed; S_OK leaves the directory as it was and the path cached; a moved directory comes only with S_ERROR; the cache only grows |
| Security.CheckEach | security/security.c:157-172 | the loop over the prefixes: on S_OK every prefix is cached and the directory is unchanged; the cache only grows |
| Security.CheckInner | security/security.c:149-175 | on S_OK every prefix of the path is cached and the directory is unchanged; a moved directory comes only with S_ERROR |
| Security.CheckPath | security/security.c:178-194 | the same for the entry point with a private copy of the path |
| SecurityProofs.VerdictsDoNotDecode | security/security.h:36-43 | the codes overlap as bits: a bad owner is lost in a bad group, world-writable in group-writable |
| SecurityProofs.OpenLinkRejected | security/security.c:216-224 | a link whose permission bits read 0777 fails review as group-writable |
| SecurityProofs.SplitEntries | security/security.c:157-168 | every checked path is a prefix of the C string at least as long as the cursor position |
| SecurityProofs.SplitOrdered | security/security.c:157-168 | each checked path is a prefix of every path checked after it |
| SecurityProofs.SplitAtSlashes | security/security.c:157-168 | from the cursor, the walk makes one check per later slash plus one, and the j-th check is the string cut at the j-th slash |
| SecurityProofs.SplitShape | security/security.c:157-172 | there is exactly one check per slash of the C string plus the final one: the j-th check is the string cut at the j-th slash, the slash positions strictly increase and every slash is among them, each checked path is a prefix of the later ones, and the whole string comes last |
| SecurityProofs.PrefixesShape | security/security.c:178-194 | the same for the paths checked for any path: one per slash before its first NUL plus one, each cut at the next slash, in order |
| SecurityProofs.RelativePathSkipsRoot | security/security.c:161-163 | a path not starting with '/' never has "/" checked |
| SecurityProofs.RootCheckedTwice | security/security.c:157-168 | the path "/" is checked as ["/", "/"] |
| SecurityProofs.FirstFailed | security/security.c:157-172 | the first verdict other than S_OK is S_OK exactly when every verdict is S_OK |
| SecurityProofs.FirstFailedIsFirst | security/security.c:169-170 | a failing first verdict sits at an index all of whose predecessors are S_OK |
| SecurityProofs.FirstFailure | security/security.h:46-51 | reference verdict: S_OK exactly when every path passes when checked on its own |
| SecurityProofs.FirstFailureIsFirst | security/security.c:169-170 | a failing reference verdict is that of a path all of whose predecessors pass |
| SecurityProofs.UncachedIsFirstFailure | security/security.c:157-172 | without a cache, the stateful loop returns the reference verdict |
| SecurityProofs.UncachedCheckPath | security/security.h:46-70 | without a cache, security_check_path is S_OK exactly when every checked prefix passes on its own |
| SecurityProofs.StopsAtFirstFailure | security/security.c:169-170 | paths after the first failure are never examined: appending more paths changes nothing |
| SecurityProofs.AbsoluteVerdictFixed | security/security.c:106-116 | an absolute non-link path gets the same verdict from any directory and on either side of a link |
| SecurityProofs.LinkPassed | security/security.c:88-138 | a link passes only if open(".") works, chdir enters a target, getwd names it, fchdir returns, and the walk of the target passes |
| SecurityProofs.LinkFollowed | security/security.c:88-138 | when open("."), chdir, getwd and fchdir all work, a link that passes review gets the verdict of the walk of its target, one more lstat than that walk, the working directory restored, and itself cached on S_OK; the cache left behind is the target walk's, plus the link itself on S_OK |
| SecurityProofs.LinkTargetMustBeTrusted | security/security.c:88-138 | a link passes only if every prefix of the directory it leads to passes |
| SecurityProofs.TrustedPathPasses | security/security.h:46-70 | a path whose every checked prefix stats, is no link and passes review is S_OK |
| SecurityProofs.StatCacheTransparent | security/security.c:47-139 | with a cache of passing paths, one check gives the verdict and directory of the uncached check, and the cache again holds only passing paths |
| SecurityProofs.EachCacheTransparent | security/security.c:157-172 | the same for the loop over the prefixes |
| SecurityProofs.FailureNotCached | security/security.c:128-136 | a check that fails never leaves its own path cached, the link path included |
| SecurityProofs.CheckPathWithCache | security/security.h:60-64 | the cache only saves work: the verdict equals the uncached one, which is S_OK exactly when every prefix passes |
| SecurityProofs.AllCachedNoWork | security/security.c:54-57 | when every path is cached the loop is S_OK with no lstat and no effect |
| SecurityProofs.RecheckIsFree | security/security.c:54-57 | checking a path again after it passed costs no lstat and changes nothing |
| SecurityProofs.LinkCallFailures | security/security.c:88-126 | for an uncached link that passes review: open(".") or chdir failing gives S_ERROR after one lstat with nothing changed; getwd failing gives S_ERROR from inside the target; fchdir failing gives S_ERROR without the link cached |
| SecurityProofs.FchdirFailureStaysInTarget | security/security.c:116-126 | when only fchdir fails, a link's check is S_ERROR with the target walk's cache and lstat count, and the process stays in the target |
| SecurityProofs.FollowedWalk | security/security.c:116 | the walk of a link target, which meets no links, ends in the directory it started in and caches nothing but its own prefixes |
| SecurityProofs.GetwdFailureLeavesDirectory | security/security.c:106-114 | an instance through security_check_path: "/l" leads into a directory getwd cannot name, and the whole check is S_ERROR from inside that directory |
| StrHash.CharValue | common/strhash.c:62-66 | a byte read as a signed 8-bit char: bytes below 128 contribute their code, bytes from 128 up their code minus 256 |
| StrHash.Djb2From | common/strhash.c:56-70 | the hash stays below 2^64 |
| StrHash.Djb2 | common/strhash.c:56-70 | djb2 from 5381 is a 64-bit value |
| StrHash.HashString | common/strhash.c:56-70 | the byte loop computes djb2 of the string |
| StrHash.Djb2FromStopsAtNul | common/strhash.c:64-66 | nothing after the first NUL affects the hash |
| StrHash.Djb2DependsOnlyOnCString | common/strhash.h:38-52 | strings with the same characters before a NUL hash alike |
| StrHash.Slot | common/strhash.c:107-108 | the slot is within the table |
| StrHash.KeyAtSlotHead | common/strhash.c:109-115 | in a reachable table a key is stored only at the head of its own slot |
| StrHash.Init | common/strhash.c:73-98 | a table of the requested number of empty slots with no items, or NULL when an allocation fails |
| StrHash.Search | common/strhash.c:107-115 | the loop inspects only the head of the key's slot: an empty slot ends it, a hit is a node of that slot holding the key and its hash, and it spins only on a non-empty slot whose head holds another hash or key |
| StrHash.SearchMeaning | common/strhash.c:109-115 | the search hits exactly the stored keys and spins exactly on a collision |
| StrHash.Add | common/strhash.c:101-131 | spins exactly on a collision; a present key returns its stored value and changes nothing; an allocation failure returns NULL and changes nothing; otherwise the key is bound to the value, the count grows by one and the table stays reachable |
| StrHash.AddFacts | common/strhash.c:117-130 | writing into an empty slot keeps the invariant and adds exactly the new key and binding |
| StrHash.HasKey | common/strhash.c:134-150 | spins exactly on a collision, otherwise true exactly when the key is stored |
| StrHash.Get | common/strhash.c:153-169 | spins exactly on a collision, otherwise the stored value, or NULL for an absent key |
| StrHash.AddThenLookup | common/strhash.h:111-145 | a key just added is found with the value it was added with |
| StrHash.AddNeverOverwrites | common/strhash.c:109-115 | adding a present key again returns the first value and changes nothing |
| StrHash.StoredNullLooksAbsent | common/strhash.h:131-145 | a stored NULL reads like an absent key, and adding it returns what an allocation failure returns |
| StrHash.CollisionSpins | common/strhash.c:141-147 | in a one-slot table holding "a", haskey("b") never returns |
| ModuleLoad.Record | master/module.c:100-111 | the record holds the fts path, st_dev and st_mtime |
| ModuleLoad.LoadAdd | master/module.c:86-117 | 0 exactly when memory is available, and then the record is the new head over the old list and the length grows by one; otherwise ENOMEM with nothing changed |
| ModuleLoad.WalkFrom | master/module.c:150-215 | the result is 0 or -1; -1 leaves no list; 0 keeps the directory, adds as many records as it counts and leaves errno 0; a failure that sets errno sets ENOMEM; one cache is threaded through the entries: it only grows, and on 0 holds every prefix of every examined path; a failure with errno set leaves the directory as it was, and a moved directory comes only with -1 from a failed check |
| ModuleLoad.WalkFiles | master/module.c:134-216 | a cache that cannot be allocated gives ENOMEM with errno ENOMEM and nothing done; otherwise 0 or -1, and 0 keeps the directory and leaves errno 0; the one cache it allocates ends up holding, on 0, every prefix of every examined path; a moved directory comes only with -1 from a failed check |
| ModuleLoad.Collect | master/module.c:197-202 | reference: the records of the collected entries, last visited first |
| ModuleLoad.CollectMembers | master/module.c:197-202 | the reference holds the record of every collected entry and nothing else |
| ModuleLoad.WalkFromMeaning | master/module.c:150-215 | the walk succeeds exactly when every examined path is trusted and every collected file finds memory, and then it has pushed exactly the reference records and counted them; when every examined path is trusted a failure leaves errno ENOMEM |
| ModuleLoad.WalkFilesMeaning | master/module.c:134-216 | modules_load_walkfiles succeeds exactly when the cache is allocated and the walk is clean, and loads the reference records ahead of the given list; when every examined path is trusted a failure leaves errno ENOMEM |
| ModuleLoad.Names | master/module.c:295-299 | the file names of the list, head first |
| ModuleLoad.WalkStopsAtUntrusted | master/module.c:189-194 | a walk that fails in the verifier stops at the first untrusted examined path and leaves the process where checking that path on its own leaves it |
| ModuleLoad.ModulesLoad | master/module.c:233-303 | a NULL path is EINVAL with errno EINVAL; otherwise 0 or -1; 0 leaves errno 0; a failure that sets errno sets ENOMEM, and a cache that cannot be allocated fails with ENOMEM; a failure lists nothing; the working directory it leaves is moved only by a -1 from a failed check |
| ModuleLoad.ModulesLoadMeaning | master/module.c:233-303 | modules_load returns 0 exactly when it has a path, fts opens it, the cache is allocated and the walk is clean, and then lists the collected files, last visited first; with a path, an open stream and every examined path trusted, a failure leaves errno ENOMEM; a failure in the verifier leaves the process where checking the first untrusted path on its own leaves it |
| ModuleLoad.HasModuleSuffix | master/module.c:182-187 | the seven characters strncmp compares at offset namelen - 7 are ".irkmod", and the name is then a stem followed by ".irkmod" |
| ModuleLoad.SuffixAppended | master/module.c:182-187 | every stem followed by ".irkmod" passes the suffix test |
| ModuleLoad.KindConsidered | master/module.c:169-177 | of the fts kinds, only FTS_DC, FTS_DNR and FTS_DP are skipped by the kind tests |
| ModuleLoad.Examined | master/module.c:169-194 | of the fts kinds, an entry reaches the security check exactly when its kind is not FTS_DC, FTS_DNR or FTS_DP and, for every kind from FTS_F up, its name has the suffix |
| ModuleLoad.Collected | master/module.c:169-199 | of the fts kinds, an entry that passes the check is listed exactly when it is FTS_F, FTS_NS, FTS_SL or FTS_W and its name has the suffix |
| ModuleLoad.SuffixExamples | master/module.c:182-187 | ".irkmod" and "cpu.irkmod" pass the suffix test; "irkmod", "cpu.irkmod.bak" and "cpu.so" do not |
| ModuleLoad.ExaminedMeaning | master/module.c:174-199 | a directory is checked whatever its name and never listed; a file is checked and listed exactly with the suffix |
| ModuleLoad.WorldWritableDirectoryBlocksLoad | master/module.c:189-194 | a world-writable modules directory makes modules_load return -1 whatever the directory holds |
| CollectorApi.AgreeEverywhere | master/module.h:75-176 | the field list covers the module record |
| CollectorApi.RegisterInitialCallback | collector/api.c:77-103 | NULL is EINVAL; otherwise 0, the callback, data and flag are set, a repeat warns, and no other field changes |
| CollectorApi.RegisterTimerCallback | collector/api.c:106-133 | the same for the timer fields |
| CollectorApi.RegisterRefreshCallback | collector/api.c:136-163 | the same for the refresh fields |
| CollectorApi.RemoveFromDefaultView | collector/api.c:166-188 | NULL is EINVAL; otherwise 0, the module leaves the default view, a module already out warns, and no other field changes |
| CollectorApi.SetRootPath | collector/api.c:49-74 | a NULL module or path is EINVAL; otherwise -1 with errno and the module untouched; never 0 |
| CollectorApi.NewModuleObject | collector/api.c:33-47 | always NULL; errno EINVAL and a warning exactly for a NULL module |
| CollectorApi.InitialRegistrationOverwrites | collector/api.c:91-102 | a second registration replaces the first, with a warning |
| CollectorApi.TimerRegistrationOverwrites | collector/api.c:121-132 | the same for the timer |
| CollectorApi.RefreshRegistrationOverwrites | collector/api.c:151-162 | the same for refresh |
| CollectorApi.RemoveIsIdempotent | collector/api.c:178-187 | a second removal leaves the module as the first did, and only it warns |
| CollectorApi.RegistrationsCommute | collector/api.c:99-161 | the three registrations write disjoint fields, so their order does not matter |
| CollectorApi.CycleTimeIgnored | collector/api.c:106-163 | the timer's cycle time and the refresh minimum never reach the module |

## Left out

- Logging (`log_*`, `syslog`) and the `fprintf` loop of `modules_load` are side effects only. `CollectorApi` records whether a call warns.
- Memory release is left out: `free_module_file_list`, `strhash_destroy`, the leaked `new_wd` and directory descriptor, and the dangling list head after a failed walk. A failed walk is modelled as an empty list.
- `strdup` failure in `security_check_path` (S_ERROR) is not modelled; the copy is taken to succeed.
- A failed `strhash_add` while caching is only logged by the verifier. The model always remembers the path.
- Security: the trust cache is a set of paths in the verifier's model. The strhash the walk really passes spins on a slot collision (`StrHash.Add`, `StrHash.HasKey`, `StrHash.CollisionSpins`). With 511 slots, two checked paths that share a slot stop the walk from returning. The set does not carry this over.
- Security.CheckStat: `open(".")` and `chdir` are modelled by `Sys`. A link whose target `chdir` cannot enter is absent from `Sys.chdir`. Link loops and relative `getwd` results are excluded by `Security.Canonical` rather than modelled.
- Security.Prefixes: the NUL the loop writes into its private copy and later restores is not modelled; the cut strings are produced directly.
- A read error reported through `errno` by `fts_read` is only logged. The stream is taken as given, and `fts_close` failure is likewise only logged.
- The `items` counter of the strhash is unbounded; its `int` overflow is not modelled.
- StrHash.CharValue: keys are byte strings (`StrHash.CString` admits only characters below 256), and a plain `char` is read as signed, as on x86-64. On targets where `char` is unsigned, such as AArch64 Linux, bytes from 128 up would contribute their code unchanged; that reading is not modelled.
- ModuleLoad.ModulesLoad: errno is `None` where the last write to it is inside the C library: a failed `fts_open`, and a check that fails in the verifier, whose `lstat`, `open`, `chdir` and `getwd` calls set it. A read error from `fts_read` that ends the stream still returns 0 with errno set; `fts_close`, `fprintf` and the logging calls are taken not to change errno after the walk.
- ModuleLoad.LoadAdd: the two allocations are one `hasMemory` flag, and errno, which equals the return code, is not returned separately.
- ModuleLoad.WalkFiles: the return code on a failed cache allocation is ENOMEM, the errno `malloc` and `calloc` set.
- The POSIX ACL check marked FIXME in `security_review_stat` does not exist, and the unfinished loading step of `modules_load` is not modelled.
- CollectorApi: the warnings dereference `mod->module_file` to print its name. A module with no file record would crash there; the model does not check it.
- CollectorApi: the `module_data` payload of the callbacks, which contains a `double`, is not modelled. Callbacks and user data are opaque pointers.
- httpserver/httpserver.c and collector/main.c are not part of this model.

=== FILE: collector_api.dfy ===
/**
 The registration calls a collector module makes on its `module` record
 (collector/api.c): each stores a callback and its user data, notes that
 it was called, and warns about a NULL module or a repeated call.
 */
module CollectorApi {
  import opened Wrappers
  import opened CTypes

  /** `struct timeval`. */
  datatype TimeVal = TimeVal(sec: int, usec: int)

  /** `struct module`; pointers to code and data are opaque addresses. */
  datatype Module = Module(
    moduleFile: Ptr,
    registeredPath: Ptr,
    initial: Ptr,
    initialData: Ptr,
    timer: Ptr,
    timerData: Ptr,
    timerDelay: TimeVal,
    refresh: Ptr,
    refreshData: Ptr,
    refreshMinimum: TimeVal,
    inDefaultView: bool,
    initialCalled: bool,
    timerCalled: bool,
    refreshCalled: bool,
    next: Ptr
  )

  // ----- Field-wise comparison -----

  datatype Field =
    | ModuleFileField | RegisteredPathField | InitialField | InitialDataField
    | TimerField | TimerDataField | TimerDelayField | RefreshField | RefreshDataField
    | RefreshMinimumField | InDefaultViewField | InitialCalledField | TimerCalledField
    | RefreshCalledField | NextField

  datatype Value = PtrValue(p: Ptr) | TimeValue(t: TimeVal) | BoolValue(b: bool)

  function Get(m: Module, f: Field): Value
  {
    match f
    case ModuleFileField => PtrValue(m.moduleFile)
    case RegisteredPathField => PtrValue(m.registeredPath)
    case InitialField => PtrValue(m.initial)
    case InitialDataField => PtrValue(m.initialData)
    case TimerField => PtrValue(m.timer)
    case TimerDataField => PtrValue(m.timerData)
    case TimerDelayField => TimeValue(m.timerDelay)
    case RefreshField => PtrValue(m.refresh)
    case RefreshDataField => PtrValue(m.refreshData)
    case RefreshMinimumField => TimeValue(m.refreshMinimum)
    case InDefaultViewField => BoolValue(m.inDefaultView)
    case InitialCalledField => BoolValue(m.initialCalled)
    case TimerCalledField => BoolValue(m.timerCalled)
    case RefreshCalledField => BoolValue(m.refreshCalled)
    case NextField => PtrValue(m.next)
  }

  /** `a` and `b` hold the same value in every field outside `except`. */
  predicate Agree(a: Module, b: Module, except: set<Field>)
  {
    forall f: Field | f !in except :: Get(a, f) == Get(b, f)
  }

  /** The fields cover the record: modules that agree everywhere are equal. */
  lemma AgreeEverywhere(a: Module, b: Module)
    requires Agree(a, b, {})
    ensures a == b
  {
    assert Get(a, ModuleFileField) == Get(b, ModuleFileField);
    assert Get(a, RegisteredPathField) == Get(b, RegisteredPathField);
    assert Get(a, InitialField) == Get(b, InitialField);
    assert Get(a, InitialDataField) == Get(b, InitialDataField);
    assert Get(a, TimerField) == Get(b, TimerField);
    assert Get(a, TimerDataField) == Get(b, TimerDataField);
    assert Get(a, TimerDelayField) == Get(b, TimerDelayField);
    assert Get(a, RefreshField) == Get(b, RefreshField);
    assert Get(a, RefreshDataField) == Get(b, RefreshDataField);
    assert Get(a, RefreshMinimumField) == Get(b, RefreshMinimumField);
    assert Get(a, InDefaultViewField) == Get(b, InDefaultViewField);
    assert Get(a, InitialCalledField) == Get(b, InitialCalledField);
    assert Get(a, TimerCalledField) == Get(b, TimerCalledField);
    assert Get(a, RefreshCalledField) == Get(b, RefreshCalledField);
    assert Get(a, NextField) == Get(b, NextField);
  }

  // ----- The calls -----

  /** A call's return code, the errno it sets (None when untouched), whether
      it logs a warning, and the module afterwards (None for NULL). */
  datatype Reply = Reply(rc: int, errno: Option<int>, warned: bool, mod: Option<Module>)

  /** What every call does with a NULL module. */
  const NullModule := Reply(EINVAL, Some(EINVAL), true, None)

  /** `register_initial_callback`. */
  function RegisterInitialCallback(mod: Option<Module>, initial: Ptr, initialData: Ptr): (r: Reply)
    ensures mod.None? ==> r == NullModule
    ensures mod.Some? ==> && r.rc == 0 && r.errno.None? && r.mod.Some?
                          && (r.warned <==> mod.value.initialCalled)
                          && r.mod.value.initial == initial && r.mod.value.initialData == initialData
                          && r.mod.value.initialCalled
                          && Agree(mod.value, r.mod.value, {InitialField, InitialDataField, InitialCalledField})
  {
    match mod
    case None => NullModule
    case Some(m) =>
      Reply(0, None, m.initialCalled, Some(m.(initialCalled := true, initial := initial, initialData := initialData)))
  }

  /** `register_timer_callback`; the cycle time is accepted and ignored. */
  function RegisterTimerCallback(mod: Option<Module>, timer: Ptr, timerData: Ptr, cycleTime: Option<TimeVal>): (r: Reply)
    ensures mod.None? ==> r == NullModule
    ensures mod.Some? ==> && r.rc == 0 && r.errno.None? && r.mod.Some?
                          && (r.warned <==> mod.value.timerCalled)
                          && r.mod.value.timer == timer && r.mod.value.timerData == timerData
                          && r.mod.value.timerCalled
                          && Agree(mod.value, r.mod.value, {TimerField, TimerDataField, TimerCalledField})
  {
    match mod
    case None => NullModule
    case Some(m) =>
      Reply(0, None, m.timerCalled, Some(m.(timerCalled := true, timer := timer, timerData := timerData)))
  }

  /** `register_refresh_callback`; the minimum time is accepted and ignored. */
  function RegisterRefreshCallback(mod: Option<Module>, refresh: Ptr, refreshData: Ptr, minimumTime: Option<TimeVal>): (r: Reply)
    ensures mod.None? ==> r == NullModule
    ensures mod.Some? ==> && r.rc == 0 && r.errno.None? && r.mod.Some?
                          && (r.warned <==> mod.value.refreshCalled)
                          && r.mod.value.refresh == refresh && r.mod.value.refreshData == refreshData
                          && r.mod.value.refreshCalled
                          && Agree(mod.value, r.mod.value, {RefreshField, RefreshDataField, RefreshCalledField})
  {
    match mod
    case None => NullModule
    case Some(m) =>
      Reply(0, None, m.refreshCalled, Some(m.(refreshCalled := true, refresh := refresh, refreshData := refreshData)))
  }

  /** `remove_from_default_view`. */
  function RemoveFromDefaultView(mod: Option<Module>): (r: Reply)
    ensures mod.None? ==> r == NullModule
    ensures mod.Some? ==> && r.rc == 0 && r.errno.None? && r.mod.Some?
                          && (r.warned <==> !mod.value.inDefaultView)
                          && !r.mod.value.inDefaultView
                          && Agree(mod.value, r.mod.value, {InDefaultViewField})
  {
    match mod
    case None => NullModule
    case Some(m) => Reply(0, None, !m.inDefaultView, Some(m.(inDefaultView := false)))
  }

  /** `set_root_path`: NULL arguments are EINVAL; otherwise the call is not
      implemented and returns -1, leaving the module and errno alone. */
  function SetRootPath(mod: Option<Module>, path: Option<string>): (r: Reply)
    ensures mod.None? || path.None? ==> r.rc == EINVAL && r.errno == Some(EINVAL) && r.warned && r.mod == mod
    ensures mod.Some? && path.Some? ==> r == Reply(-1, None, false, mod)
    ensures r.rc != 0
  {
    if mod.None? then NullModule
    else if path.None? then Reply(EINVAL, Some(EINVAL), true, mod)
    else Reply(-1, None, false, mod)
  }

  /** The result of `new_module_object`: the pointer returned, the errno set
      (None when untouched), and whether a warning is logged. */
  datatype Made = Made(obj: Ptr, errno: Option<int>, warned: bool)

  /** `new_module_object`: not implemented; it always returns NULL, and sets
      EINVAL only for a NULL module. */
  function NewModuleObject(mod: Option<Module>): (r: Made)
    ensures r.obj == Null
    ensures r.errno == Some(EINVAL) <==> mod.None?
    ensures r.warned <==> mod.None?
  {
    if mod.None? then Made(Null, Some(EINVAL), true) else Made(Null, None, false)
  }

  // ----- Properties of sequences of calls -----

  /** A repeated registration replaces the earlier one: the module is as if
      only the last call had been made, and the repeat warns. */
  lemma InitialRegistrationOverwrites(m: Module, f: Ptr, d: Ptr, g: Ptr, e: Ptr)
    ensures var once := RegisterInitialCallback(Some(m), f, d);
            var twice := RegisterInitialCallback(once.mod, g, e);
            twice.mod == RegisterInitialCallback(Some(m), g, e).mod && twice.warned
  {
  }

  lemma TimerRegistrationOverwrites(m: Module, f: Ptr, d: Ptr, g: Ptr, e: Ptr, c1: Option<TimeVal>, c2: Option<TimeVal>)
    ensures var once := RegisterTimerCallback(Some(m), f, d, c1);
            var twice := RegisterTimerCallback(once.mod, g, e, c2);
            twice.mod == RegisterTimerCallback(Some(m), g, e, c1).mod && twice.warned
  {
  }

  lemma RefreshRegistrationOverwrites(m: Module, f: Ptr, d: Ptr, g: Ptr, e: Ptr, c1: Option<TimeVal>, c2: Option<TimeVal>)
    ensures var once := RegisterRefreshCallback(Some(m), f, d, c1);
            var twice := RegisterRefreshCallback(once.mod, g, e, c2);
            twice.mod == RegisterRefreshCallback(Some(m), g, e, c1).mod && twice.warned
  {
  }

  /** Removing a module from the default view twice leaves it as removing it
      once does; only the second call warns. */
  lemma RemoveIsIdempotent(m: Module)
    requires m.inDefaultView
    ensures var once := RemoveFromDefaultView(Some(m));
            var twice := RemoveFromDefaultView(once.mod);
            twice.mod == once.mod && !once.warned && twice.warned
  {
  }

  /** The three registrations touch disjoint fields, so their order does not
      matter to the module they leave. */
  lemma RegistrationsCommute(m: Module, i: Ptr, id: Ptr, t: Ptr, td: Ptr, r: Ptr, rd: Ptr)
    ensures var a := RegisterRefreshCallback(RegisterTimerCallback(RegisterInitialCallback(Some(m), i, id).mod, t, td, None).mod, r, rd, None).mod;
            var b := RegisterInitialCallback(RegisterTimerCallback(RegisterRefreshCallback(Some(m), r, rd, None).mod, t, td, None).mod, i, id).mod;
            a == b
  {
  }

  /** The timer's cycle time never reaches the module: the stored delay is
      the one the module already had. */
  lemma CycleTimeIgnored(m: Module, t: Ptr, td: Ptr, c: TimeVal)
    ensures RegisterTimerCallback(Some(m), t, td, Some(c)).mod.value.timerDelay == m.timerDelay
    ensures RegisterRefreshCallback(Some(m), t, td, Some(c)).mod.value.refreshMinimum == m.refreshMinimum
  {
    assert Get(m, TimerDelayField) == Get(RegisterTimerCallback(Some(m), t, td, Some(c)).mod.value, TimerDelayField);
    assert Get(m, RefreshMinimumField) == Get(RegisterRefreshCallback(Some(m), t, td, Some(c)).mod.value, RefreshMinimumField);
  }
}

=== FILE: module_load.dfy ===
/**
 The module-file walk of master/module.c: the entries fts returns for the
 modules directory are filtered by kind and extension, every considered
 path must pass the path-trust verifier, and every accepted file is pushed
 on the front of the list of modules to load.

 The fts stream, the outcome of each allocation and the filesystem are
 parameters: `stream` is what successive fts_read calls return before NULL,
 `cacheAllocated` says whether strhash_init(511) succeeds, and `oom` holds
 the stream indices at which modules_load_add cannot allocate.
 */
module ModuleLoad {
  import opened Wrappers
  import opened CTypes
  import opened Security
  import SecurityProofs

  // ----- fts -----

  /** `fts_info`, with the values of fts.h. */
  type FtsInfo = bv16

  const FTS_D: FtsInfo := 1
  const FTS_DC: FtsInfo := 2
  const FTS_DEFAULT: FtsInfo := 3
  const FTS_DNR: FtsInfo := 4
  const FTS_DOT: FtsInfo := 5
  const FTS_DP: FtsInfo := 6
  const FTS_ERR: FtsInfo := 7
  const FTS_F: FtsInfo := 8
  const FTS_INIT: FtsInfo := 9
  const FTS_NS: FtsInfo := 10
  const FTS_NSOK: FtsInfo := 11
  const FTS_SL: FtsInfo := 12
  const FTS_SLNONE: FtsInfo := 13
  const FTS_W: FtsInfo := 14

  /** One FTSENT: its kind, its path, its last component and its stat. */
  datatype FtsEnt = FtsEnt(info: FtsInfo, path: string, name: string, statp: Stat)

  /** One entry of the module list: the file name, the device number the
      code stores in the field named `inode`, and the modification time. */
  datatype ModuleFile = ModuleFile(filename: string, inode: nat, modifiedTime: int)

  // ----- The filters of modules_load_walkfiles -----

  const MODULE_SUFFIX: string := ".irkmod"

  /** The suffix test: the seven characters strncmp compares, from offset
      `fts_namelen - 7`, are those of ".irkmod", so the name is a stem
      followed by the suffix. */
  function HasModuleSuffix(name: string): (b: bool)
    ensures b <==> |name| >= |MODULE_SUFFIX|
                   && forall k | 0 <= k < |MODULE_SUFFIX| :: name[|name| - |MODULE_SUFFIX| + k] == MODULE_SUFFIX[k]
    ensures b ==> name == name[..|name| - |MODULE_SUFFIX|] + MODULE_SUFFIX
  {
    |name| >= |MODULE_SUFFIX| && name[|name| - |MODULE_SUFFIX|..] == MODULE_SUFFIX
  }

  /** The kind survives the two kind tests: it is not FTS_DP and it shares a
      bit with FTS_F | FTS_D. Among the fts kinds that lets through every
      kind except FTS_DC, FTS_DNR and FTS_DP: the bit test admits FTS_NS,
      FTS_SL, FTS_ERR and others that are neither a file nor a directory. */
  function KindConsidered(info: FtsInfo): (b: bool)
    ensures FTS_D <= info <= FTS_W ==> (b <==> info !in {FTS_DC, FTS_DNR, FTS_DP})
  {
    info != FTS_DP && info & (FTS_F | FTS_D) != 0
  }

  /** The entry reaches the security check. Every kind from FTS_F up carries
      the FTS_F bit, so the suffix test applies to links, unstatable entries
      and whiteouts as well as to files. */
  function Examined(f: FtsEnt): (b: bool)
    ensures FTS_D <= f.info <= FTS_W ==>
              (b <==> f.info !in {FTS_DC, FTS_DNR, FTS_DP} && (FTS_F <= f.info ==> HasModuleSuffix(f.name)))
  {
    KindConsidered(f.info) && (f.info & FTS_F != 0 ==> HasModuleSuffix(f.name))
  }

  /** The entry is added to the list once it has passed the security check.
      Among the fts kinds, those without the FTS_D bit and with the FTS_F
      bit reach the list: FTS_F, FTS_NS, FTS_SL and FTS_W. The others that
      pass are checked and then skipped as directories. */
  function Collected(f: FtsEnt): (b: bool)
    ensures FTS_D <= f.info <= FTS_W ==>
              (b <==> f.info in {FTS_F, FTS_NS, FTS_SL, FTS_W} && HasModuleSuffix(f.name))
  {
    Examined(f) && f.info & FTS_D == 0
  }

  /** The list entry modules_load_add builds from an FTSENT. */
  function Record(f: FtsEnt): (m: ModuleFile)
    ensures m.filename == f.path && m.inode == f.statp.dev && m.modifiedTime == f.statp.mtime
  {
    ModuleFile(f.path, f.statp.dev, f.statp.mtime)
  }

  // ----- modules_load_add -----

  /** The return code, the list head and the length after modules_load_add. */
  datatype Added = Added(rc: int, list: seq<ModuleFile>, length: int)

  /** `modules_load_add`: push the record of `f` and count it, or fail with
      ENOMEM and change nothing. `hasMemory` says whether both allocations
      succeed. */
  function LoadAdd(f: FtsEnt, list: seq<ModuleFile>, length: int, hasMemory: bool): (a: Added)
    ensures a.rc == 0 <==> hasMemory
    ensures !hasMemory ==> a == Added(ENOMEM, list, length)
    ensures hasMemory ==> |a.list| == |list| + 1 && a.list[0] == Record(f) && a.list[1..] == list
    ensures hasMemory ==> a.length == length + 1
  {
    if !hasMemory then Added(ENOMEM, list, length)
    else Added(0, [Record(f)] + list, length + 1)
  }

  // ----- modules_load_walkfiles -----

  /** The return code, the list (empty once freed), the length counter, the
      working directory and errno after modules_load_walkfiles, and the trust
      cache as the walk leaves it to strhash_destroy (None when it was never
      allocated). `errno` is None where it holds whatever a library call
      outside the model (lstat, chdir, getwd and the like inside the
      verifier) left there. */
  datatype Walk = Walk(rc: int, files: seq<ModuleFile>, length: int, cwd: string, errno: Option<int>,
                       cache: Option<set<string>>)

  /** Every prefix of every path examined from stream index `i` on is in
      `cache`. */
  ghost predicate CachesExamined(stream: seq<FtsEnt>, i: nat, cache: set<string>)
  {
    forall j, q | i <= j < |stream| && Examined(stream[j]) && q in Prefixes(stream[j].path) :: q in cache
  }

  /** The loop of modules_load_walkfiles from stream index `i` on, with the
      verifier state `s` and the list and length built so far. */
  function WalkFrom(sys: Sys, stream: seq<FtsEnt>, oom: set<nat>, i: nat, s: Proc, list: seq<ModuleFile>, length: int): (w: Walk)
    requires Canonical(sys) && i <= |stream|
    ensures w.rc == 0 || w.rc == -1
    ensures w.rc == -1 ==> w.files == []
    ensures w.rc == 0 ==> w.cwd == s.cwd && |w.files| - |list| == w.length - length >= 0
    ensures w.rc == 0 ==> w.errno == Some(0)
    ensures w.rc != 0 && w.errno.Some? ==> w.errno == Some(ENOMEM)
    ensures w.errno.Some? ==> w.cwd == s.cwd
    ensures w.cwd != s.cwd ==> w.rc == -1 && w.errno.None?
    ensures s.cache.Some? ==> w.cache.Some? && s.cache.value <= w.cache.value
    ensures w.rc == 0 && s.cache.Some? ==> CachesExamined(stream, i, w.cache.value)
    decreases |stream| - i
  {
    if i == |stream| then Walk(0, list, length, s.cwd, Some(0), s.cache)
    else
      var f := stream[i];
      if !Examined(f) then WalkFrom(sys, stream, oom, i + 1, s, list, length)
      else
        var c := CheckPath(sys, s, f.path);
        if c.verdict != S_OK then Walk(-1, [], length, c.after.cwd, None, c.after.cache)
        else if f.info & FTS_D != 0 then WalkFrom(sys, stream, oom, i + 1, c.after, list, length)
        else
          var a := LoadAdd(f, list, length, i !in oom);
          if a.rc != 0 then Walk(-1, [], a.length, c.after.cwd, Some(ENOMEM), c.after.cache)
          else WalkFrom(sys, stream, oom, i + 1, c.after, a.list, a.length)
  }

  /** `modules_load_walkfiles`: allocate one trust cache, then walk with it
      shared by every entry. */
  function WalkFiles(sys: Sys, cwd: string, stream: seq<FtsEnt>, cacheAllocated: bool, oom: set<nat>,
                     list: seq<ModuleFile>, length: int): (w: Walk)
    requires Canonical(sys)
    ensures !cacheAllocated ==> w == Walk(ENOMEM, list, length, cwd, Some(ENOMEM), None)
    ensures cacheAllocated ==> w.rc == 0 || w.rc == -1
    ensures w.rc == 0 ==> w.cwd == cwd && w.errno == Some(0)
    ensures w.cwd != cwd ==> cacheAllocated && w.rc == -1 && w.errno.None?
    ensures cacheAllocated ==> w.cache.Some?
    ensures w.rc == 0 && cacheAllocated ==> CachesExamined(stream, 0, w.cache.value)
  {
    if !cacheAllocated then Walk(ENOMEM, list, length, cwd, Some(ENOMEM), None)
    else WalkFrom(sys, stream, oom, 0, Proc(Some({}), cwd), list, length)
  }

  // ----- The reference: what a successful walk loads -----

  /** The records of the collected entries, last visited first. */
  function Collect(es: seq<FtsEnt>): (r: seq<ModuleFile>)
    ensures |r| <= |es|
  {
    if es == [] then []
    else Collect(es[1..]) + (if Collected(es[0]) then [Record(es[0])] else [])
  }

  /** The reference holds the record of every collected entry and nothing
      else. */
  lemma {:induction false} CollectMembers(es: seq<FtsEnt>)
    ensures forall j | 0 <= j < |es| && Collected(es[j]) :: Record(es[j]) in Collect(es)
    ensures forall m | m in Collect(es) :: exists j | 0 <= j < |es| :: Collected(es[j]) && Record(es[j]) == m
  {
    if es != [] {
      CollectMembers(es[1..]);
      assert forall j | 1 <= j < |es| :: es[j] == es[1..][j - 1];
    }
  }

  /** Every prefix of `path` passes the verifier on its own. */
  ghost predicate Trusted(sys: Sys, cwd: string, path: string)
    requires Canonical(sys)
  {
    forall q | q in Prefixes(path) :: SecurityProofs.Secure(sys, cwd, q)
  }

  /** The walk from index `i` on meets no untrusted examined path and no
      failed allocation. */
  ghost predicate Clean(sys: Sys, cwd: string, stream: seq<FtsEnt>, oom: set<nat>, i: nat)
    requires Canonical(sys)
  {
    forall j | i <= j < |stream| ::
      (Examined(stream[j]) ==> Trusted(sys, cwd, stream[j].path)) && (Collected(stream[j]) ==> j !in oom)
  }

  /** Every examined path from index `i` on is trusted. */
  ghost predicate AllTrusted(sys: Sys, cwd: string, stream: seq<FtsEnt>, i: nat)
    requires Canonical(sys)
  {
    forall j | i <= j < |stream| :: Examined(stream[j]) ==> Trusted(sys, cwd, stream[j].path)
  }

  /** The walk succeeds exactly when it is clean, and then it has pushed the
      collected records, last visited first, and counted each one. The
      cache only saves work: it must hold paths that pass. */
  lemma {:induction false} WalkFromMeaning(sys: Sys, cwd: string, stream: seq<FtsEnt>, oom: set<nat>, i: nat,
                                           cache: set<string>, list: seq<ModuleFile>, length: int)
    requires Canonical(sys) && i <= |stream|
    requires SecurityProofs.ValidCache(sys, cwd, cache)
    ensures var w := WalkFrom(sys, stream, oom, i, Proc(Some(cache), cwd), list, length);
            && (w.rc == 0 <==> Clean(sys, cwd, stream, oom, i))
            && (w.rc == 0 ==> w.files == Collect(stream[i..]) + list && w.length == length + |Collect(stream[i..])|)
            && (w.rc != 0 && AllTrusted(sys, cwd, stream, i) ==> w.errno == Some(ENOMEM))
    decreases |stream| - i, 2
  {
    if i < |stream| {
      if Examined(stream[i]) {
        WalkExaminedMeaning(sys, cwd, stream, oom, i, cache, list, length);
      } else {
        WalkFromMeaning(sys, cwd, stream, oom, i + 1, cache, list, length);
        CollectStep(stream, i);
        CleanStep(sys, cwd, stream, oom, i);
      }
    }
  }

  /** The step of WalkFromMeaning for an entry that reaches the check. */
  lemma {:induction false} WalkExaminedMeaning(sys: Sys, cwd: string, stream: seq<FtsEnt>, oom: set<nat>, i: nat,
                                               cache: set<string>, list: seq<ModuleFile>, length: int)
    requires Canonical(sys) && i < |stream| && Examined(stream[i])
    requires SecurityProofs.ValidCache(sys, cwd, cache)
    ensures var w := WalkFrom(sys, stream, oom, i, Proc(Some(cache), cwd), list, length);
            && (w.rc == 0 <==> Clean(sys, cwd, stream, oom, i))
            && (w.rc == 0 ==> w.files == Collect(stream[i..]) + list && w.length == length + |Collect(stream[i..])|)
            && (w.rc != 0 && AllTrusted(sys, cwd, stream, i) ==> w.errno == Some(ENOMEM))
    decreases |stream| - i, 1
  {
    var c := CheckPath(sys, Proc(Some(cache), cwd), stream[i].path);
    SecurityProofs.CheckPathWithCache(sys, cache, cwd, stream[i].path);
    CleanStep(sys, cwd, stream, oom, i);
    if c.verdict == S_OK {
      WalkPassedMeaning(sys, cwd, stream, oom, i, cache, list, length);
    }
  }

  /** The step of WalkFromMeaning for an entry whose path passes the check. */
  lemma {:induction false} WalkPassedMeaning(sys: Sys, cwd: string, stream: seq<FtsEnt>, oom: set<nat>, i: nat,
                                             cache: set<string>, list: seq<ModuleFile>, length: int)
    requires Canonical(sys) && i < |stream| && Examined(stream[i])
    requires SecurityProofs.ValidCache(sys, cwd, cache)
    requires CheckPath(sys, Proc(Some(cache), cwd), stream[i].path).verdict == S_OK
    ensures var w := WalkFrom(sys, stream, oom, i, Proc(Some(cache), cwd), list, length);
            && (w.rc == 0 <==> Clean(sys, cwd, stream, oom, i))
            && (w.rc == 0 ==> w.files == Collect(stream[i..]) + list && w.length == length + |Collect(stream[i..])|)
            && (w.rc != 0 && AllTrusted(sys, cwd, stream, i) ==> w.errno == Some(ENOMEM))
    decreases |stream| - i, 0
  {
    var f := stream[i];
    var c := CheckPath(sys, Proc(Some(cache), cwd), f.path);
    SecurityProofs.CheckPathWithCache(sys, cache, cwd, f.path);
    CleanStep(sys, cwd, stream, oom, i);
    var cache' := c.after.cache.value;
    assert c.after == Proc(Some(cache'), cwd);
    if f.info & FTS_D != 0 {
      CollectStep(stream, i);
      WalkFromMeaning(sys, cwd, stream, oom, i + 1, cache', list, length);
    } else if i !in oom {
      var a := LoadAdd(f, list, length, true);
      WalkFromMeaning(sys, cwd, stream, oom, i + 1, cache', a.list, a.length);
      CollectPush(stream, i, list);
    }
  }

  /** The reference from `i` is the reference from `i + 1` and the entry at `i`. */
  lemma CollectStep(stream: seq<FtsEnt>, i: nat)
    requires i < |stream|
    ensures Collect(stream[i..]) == Collect(stream[i + 1..]) + (if Collected(stream[i]) then [Record(stream[i])] else [])
  {
    assert stream[i..][1..] == stream[i + 1..];
  }

  /** Pushing the record of a collected entry onto the list built from the
      rest of the stream gives the list built from the entry on. */
  lemma CollectPush(stream: seq<FtsEnt>, i: nat, list: seq<ModuleFile>)
    requires i < |stream| && Collected(stream[i])
    ensures Collect(stream[i + 1..]) + ([Record(stream[i])] + list) == Collect(stream[i..]) + list
  {
    CollectStep(stream, i);
  }

  /** The index of the first entry from `i` on that reaches the check with
      an untrusted path, or the length of the stream when there is none. */
  ghost function FirstUntrusted(sys: Sys, cwd: string, stream: seq<FtsEnt>, i: nat): (j: nat)
    requires Canonical(sys) && i <= |stream|
    ensures i <= j <= |stream|
    ensures j < |stream| ==> Examined(stream[j]) && !Trusted(sys, cwd, stream[j].path)
    ensures AllTrusted(sys, cwd, stream, i) <==> j == |stream|
    decreases |stream| - i
  {
    if i == |stream| then i
    else if Examined(stream[i]) && !Trusted(sys, cwd, stream[i].path) then i
    else FirstUntrusted(sys, cwd, stream, i + 1)
  }

  /** A walk that fails in the verifier stops at the first untrusted path
      and leaves the process in the directory where checking that path on
      its own leaves it. */
  lemma {:induction false} WalkStopsAtUntrusted(sys: Sys, cwd: string, stream: seq<FtsEnt>, oom: set<nat>, i: nat,
                                                cache: set<string>, list: seq<ModuleFile>, length: int)
    requires Canonical(sys) && i <= |stream|
    requires SecurityProofs.ValidCache(sys, cwd, cache)
    ensures var w := WalkFrom(sys, stream, oom, i, Proc(Some(cache), cwd), list, length);
            var j := FirstUntrusted(sys, cwd, stream, i);
            w.rc != 0 && w.errno.None? ==>
              j < |stream| && w.cwd == CheckPath(sys, Proc(None, cwd), stream[j].path).after.cwd
    decreases |stream| - i, 1
  {
    if i < |stream| {
      var f := stream[i];
      if !Examined(f) {
        WalkStopsAtUntrusted(sys, cwd, stream, oom, i + 1, cache, list, length);
      } else {
        SecurityProofs.CheckPathWithCache(sys, cache, cwd, f.path);
        SecurityProofs.EachCacheTransparent(sys, cache, cwd, cwd, Prefixes(f.path), false);
        if CheckPath(sys, Proc(Some(cache), cwd), f.path).verdict == S_OK {
          PassedStopsAtUntrusted(sys, cwd, stream, oom, i, cache, list, length);
        }
      }
    }
  }

  /** The step of WalkStopsAtUntrusted for an entry whose path passes. */
  lemma {:induction false} PassedStopsAtUntrusted(sys: Sys, cwd: string, stream: seq<FtsEnt>, oom: set<nat>, i: nat,
                                                  cache: set<string>, list: seq<ModuleFile>, length: int)
    requires Canonical(sys) && i < |stream| && Examined(stream[i])
    requires SecurityProofs.ValidCache(sys, cwd, cache)
    requires CheckPath(sys, Proc(Some(cache), cwd), stream[i].path).verdict == S_OK
    ensures var w := WalkFrom(sys, stream, oom, i, Proc(Some(cache), cwd), list, length);
            var j := FirstUntrusted(sys, cwd, stream, i);
            w.rc != 0 && w.errno.None? ==>
              j < |stream| && w.cwd == CheckPath(sys, Proc(None, cwd), stream[j].path).after.cwd
    decreases |stream| - i, 0
  {
    var f := stream[i];
    var c := CheckPath(sys, Proc(Some(cache), cwd), f.path);
    SecurityProofs.CheckPathWithCache(sys, cache, cwd, f.path);
    var cache' := c.after.cache.value;
    assert c.after == Proc(Some(cache'), cwd);
    if f.info & FTS_D != 0 {
      WalkStopsAtUntrusted(sys, cwd, stream, oom, i + 1, cache', list, length);
    } else if i !in oom {
      var a := LoadAdd(f, list, length, true);
      WalkStopsAtUntrusted(sys, cwd, stream, oom, i + 1, cache', a.list, a.length);
    }
  }

  /** Cleanliness from `i` is that of the entry at `i` and of the rest. */
  lemma CleanStep(sys: Sys, cwd: string, stream: seq<FtsEnt>, oom: set<nat>, i: nat)
    requires Canonical(sys) && i < |stream|
    ensures Clean(sys, cwd, stream, oom, i) <==>
            && (Examined(stream[i]) ==> Trusted(sys, cwd, stream[i].path))
            && (Collected(stream[i]) ==> i !in oom)
            && Clean(sys, cwd, stream, oom, i + 1)
    ensures AllTrusted(sys, cwd, stream, i) <==>
            && (Examined(stream[i]) ==> Trusted(sys, cwd, stream[i].path))
            && AllTrusted(sys, cwd, stream, i + 1)
  {
  }

  /** `modules_load_walkfiles` succeeds exactly when the cache is allocated,
      every examined path is trusted and every add finds memory; it then
      loads the collected files, last visited first, after the list it was
      given. A failed cache allocation reports ENOMEM. */
  lemma WalkFilesMeaning(sys: Sys, cwd: string, stream: seq<FtsEnt>, cacheAllocated: bool, oom: set<nat>,
                         list: seq<ModuleFile>, length: int)
    requires Canonical(sys)
    ensures var w := WalkFiles(sys, cwd, stream, cacheAllocated, oom, list, length);
            && (w.rc == 0 <==> cacheAllocated && Clean(sys, cwd, stream, oom, 0))
            && (w.rc == 0 ==> w.files == Collect(stream) + list && w.length == length + |Collect(stream)|)
            && (w.rc != 0 && AllTrusted(sys, cwd, stream, 0) ==> w.errno == Some(ENOMEM))
  {
    if cacheAllocated {
      WalkFromMeaning(sys, cwd, stream, oom, 0, {}, list, length);
      assert stream[0..] == stream;
    }
  }

  // ----- modules_load -----

  /** The return code of modules_load, the errno it leaves (None where that
      is whatever fts_open or a call inside the verifier set), the file names
      of the list it walks (empty unless it returns 0), and the working
      directory the process is left in. */
  datatype Load = Load(rc: int, errno: Option<int>, loaded: seq<string>, cwd: string)

  /** The file names of a module list, head first. */
  function Names(ms: seq<ModuleFile>): (r: seq<string>)
    ensures |r| == |ms| && forall j | 0 <= j < |ms| :: r[j] == ms[j].filename
  {
    if ms == [] then [] else [ms[0].filename] + Names(ms[1..])
  }

  /** `modules_load` through `modules_load_getlist`: a NULL path is EINVAL;
      an fts_open failure or a failed walk is -1; otherwise 0 with the
      freshly built list. errno is cleared before fts_open and before every
      fts_read, so a success leaves 0, and a failed allocation leaves
      ENOMEM. */
  function ModulesLoad(sys: Sys, cwd: string, path: Option<string>, ftsOpened: bool, stream: seq<FtsEnt>,
                       cacheAllocated: bool, oom: set<nat>): (l: Load)
    requires Canonical(sys)
    ensures path.None? ==> l == Load(EINVAL, Some(EINVAL), [], cwd)
    ensures path.Some? ==> l.rc == 0 || l.rc == -1
    ensures l.rc == 0 ==> l.errno == Some(0)
    ensures path.Some? && l.rc != 0 && l.errno.Some? ==> l.errno == Some(ENOMEM)
    ensures path.Some? && ftsOpened && !cacheAllocated ==> l == Load(-1, Some(ENOMEM), [], cwd)
    ensures l.rc != 0 ==> l.loaded == []
    ensures l.cwd != cwd ==> path.Some? && ftsOpened && cacheAllocated && l.rc == -1 && l.errno.None?
  {
    if path.None? then Load(EINVAL, Some(EINVAL), [], cwd)
    else if !ftsOpened then Load(-1, None, [], cwd)
    else
      var w := WalkFiles(sys, cwd, stream, cacheAllocated, oom, [], 0);
      if w.rc != 0 then Load(-1, w.errno, [], w.cwd)
      else Load(0, Some(0), Names(w.files), cwd)
  }

  /** modules_load returns 0 exactly when it is given a path, fts opens it,
      the cache is allocated and the walk is clean; it then lists exactly
      the collected files, last visited first. */
  lemma ModulesLoadMeaning(sys: Sys, cwd: string, path: Option<string>, ftsOpened: bool, stream: seq<FtsEnt>,
                           cacheAllocated: bool, oom: set<nat>)
    requires Canonical(sys)
    ensures var l := ModulesLoad(sys, cwd, path, ftsOpened, stream, cacheAllocated, oom);
            && (l.rc == 0 <==> path.Some? && ftsOpened && cacheAllocated && Clean(sys, cwd, stream, oom, 0))
            && (l.rc == 0 ==> l.loaded == Names(Collect(stream)))
            && (path.Some? && ftsOpened && AllTrusted(sys, cwd, stream, 0) && l.rc != 0 ==> l.errno == Some(ENOMEM))
            && (l.cwd != cwd ==> path.Some? && ftsOpened && cacheAllocated && l.rc == -1 && l.errno.None?)
            && (path.Some? && ftsOpened && cacheAllocated && l.rc != 0 && l.errno.None? ==>
                  var j := FirstUntrusted(sys, cwd, stream, 0);
                  j < |stream| && l.cwd == CheckPath(sys, Proc(None, cwd), stream[j].path).after.cwd)
  {
    WalkFilesMeaning(sys, cwd, stream, cacheAllocated, oom, [], 0);
    if path.Some? && ftsOpened && cacheAllocated {
      WalkStopsAtUntrusted(sys, cwd, stream, oom, 0, {}, [], 0);
    }
    assert Collect(stream) + [] == Collect(stream);
  }

  // ----- What the filters let through -----

  /** Every stem followed by ".irkmod" passes the suffix test. */
  lemma SuffixAppended(stem: string)
    ensures HasModuleSuffix(stem + MODULE_SUFFIX)
  {
    assert (stem + MODULE_SUFFIX)[|stem|..] == MODULE_SUFFIX;
  }

  /** The extension filter on a few names: the bare name ".irkmod" passes;
      a name with the suffix elsewhere does not. */
  lemma SuffixExamples()
    ensures HasModuleSuffix(".irkmod") && HasModuleSuffix("cpu.irkmod")
    ensures !HasModuleSuffix("irkmod") && !HasModuleSuffix("cpu.irkmod.bak") && !HasModuleSuffix("cpu.so")
  {
    assert "cpu.irkmod"[3..] == ".irkmod";
    assert "cpu.irkmod.bak"[7..] != ".irkmod" by {
      assert "cpu.irkmod.bak"[7..][0] == 'm';
    }
  }

  /** A directory entry is examined whatever its name, and a file entry only
      with the suffix. */
  lemma ExaminedMeaning(f: FtsEnt)
    ensures f.info == FTS_D ==> Examined(f) && !Collected(f)
    ensures f.info == FTS_F ==> (Examined(f) <==> HasModuleSuffix(f.name)) && (Collected(f) <==> HasModuleSuffix(f.name))
  {
  }

  // ----- A world-writable module directory -----

  const OpenDir := Stat(0, 0, 0x41FF, 0, 3, 0)      // drwxrwxrwx root:root

  /** "/m" is a world-writable directory below a sound root. */
  const OpenModules := Sys(map["/" := SecurityProofs.Dir, "/m" := OpenDir], map[], {}, {}, {})

  /** When the modules directory itself is world-writable, loading fails
      with -1 whatever it contains: fts returns the directory first, and its
      check fails before any file is reached. */
  lemma WorldWritableDirectoryBlocksLoad(rest: seq<FtsEnt>, cacheAllocated: bool, oom: set<nat>)
    ensures Canonical(OpenModules)
    ensures ModulesLoad(OpenModules, "/", Some("/m"), true, [FtsEnt(FTS_D, "/m", "m", OpenDir)] + rest,
                        cacheAllocated, oom).rc == -1
  {
    var stream := [FtsEnt(FTS_D, "/m", "m", OpenDir)] + rest;
    WalkFilesMeaning(OpenModules, "/", stream, cacheAllocated, oom, [], 0);
    assert CStr("/m") == "/m";
    assert "/m" in Prefixes("/m");
    assert Lstat(OpenModules, "/", "/m") == Some(OpenDir);
    assert !SecurityProofs.Secure(OpenModules, "/", "/m");
    assert !Trusted(OpenModules, "/", "/m");
    assert stream[0].path == "/m" && Examined(stream[0]);
  }
}

=== FILE: security.dfy ===
/**
 Model of the path-trust verifier (`security/security.c`, `security/security.h`).

 The filesystem is a value of type `Sys`: what `lstat` reports for each
 absolute path, where `chdir` lands for each path that can be entered, and the
 directories in which `getwd`, `open(".")` or `fchdir` back fail. The process
 working directory is threaded through every call as part of `Proc`, together
 with the trust cache, which is `None` when the caller passes a NULL cache.
 */
module Security {
  import opened Wrappers

  /** `enum security_error_codes`, held in a C `int`. */
  type Verdict = bv32

  const S_OK: Verdict := 0x0
  const S_ERROR: Verdict := 0x01
  const S_OWNER_NOT_ROOT: Verdict := 0x02
  const S_GROUP_NOT_ROOT: Verdict := 0x03
  const S_WORLD_WRITABLE: Verdict := 0x04
  const S_GROUP_WRITABLE: Verdict := 0x05

  /** `mode_t` and the POSIX bits the verifier reads (octal 0170000,
      0120000, 0020 and 0002). */
  type Mode = bv32

  const S_IFMT: Mode := 0xF000
  const S_IFLNK: Mode := 0xA000
  const S_IWGRP: Mode := 0x10
  const S_IWOTH: Mode := 0x2

  /** The fields of `struct stat` the core reads. */
  datatype Stat = Stat(uid: nat, gid: nat, mode: Mode, dev: nat, ino: nat, mtime: int)

  /** `S_ISLNK`: the file-type field of `st_mode`, bits 12 to 15, holds the
      symbolic-link type 012 (octal); the permission bits play no part. */
  function IsLink(st: Stat): (b: bool)
    ensures b <==> (st.mode >> 12) & 0xF == 0xA
  {
    st.mode & S_IFMT == S_IFLNK
  }

  /** `security_review_stat`: every check runs and ORs in its code. */
  function ReviewStat(st: Stat): (v: Verdict)
    ensures v == S_OK <==>
              st.uid == 0 && st.gid == 0 && st.mode & S_IWOTH == 0 && st.mode & S_IWGRP == 0
    ensures v != S_ERROR
    ensures v <= 7
    ensures (v & 0x4 != 0) <==> (st.mode & S_IWOTH != 0 || st.mode & S_IWGRP != 0)
    ensures (v & 0x2 != 0) <==> (st.uid != 0 || st.gid != 0)
    ensures (v & 0x1 != 0) <==> (st.gid != 0 || st.mode & S_IWGRP != 0)
  {
    var owner := if st.uid != 0 then S_OWNER_NOT_ROOT else S_OK;
    var group := if st.gid != 0 then S_GROUP_NOT_ROOT else S_OK;
    var world := if st.mode & S_IWOTH != 0 then S_WORLD_WRITABLE else S_OK;
    var groupWritable := if st.mode & S_IWGRP != 0 then S_GROUP_WRITABLE else S_OK;
    owner | group | world | groupWritable
  }

  predicate IsAbsolute(p: string)
  {
    |p| > 0 && p[0] == '/'
  }

  /** The index of the NUL that ends the C string `s` from `i` on, or `|s|`. */
  function Terminator(s: string, i: nat): (t: nat)
    requires i <= |s|
    ensures i <= t <= |s|
    ensures t == |s| || s[t] == '\0'
    ensures forall k | i <= k < t :: s[k] != '\0'
    decreases |s| - i
  {
    if i == |s| || s[i] == '\0' then i else Terminator(s, i + 1)
  }

  /** The C string `s` denotes: its characters before the first NUL. */
  function CStr(s: string): (c: string)
    ensures c <= s && '\0' !in c
    ensures |c| == |s| || s[|c|] == '\0'
  {
    s[..Terminator(s, 0)]
  }

  /** The path checked while the cursor stands on the slash at index `k`:
      the root for a leading slash, otherwise everything before the slash. */
  function Cut(c: string, k: nat): (r: string)
    requires k <= |c|
    ensures k == 0 ==> r == "/"
    ensures k > 0 ==> |r| == k && r <= c
  {
    if k == 0 then "/" else c[..k]
  }

  /** The paths `security_check_path_inner` checks, in order, while its
      cursor moves from index `i` of the C string `c`: the cut at every
      slash, then the whole string when the cursor reaches the NUL. */
  function Split(c: string, i: nat): (r: seq<string>)
    requires i <= |c|
    ensures |r| >= 1 && r[|r| - 1] == c
    ensures i == 0 && IsAbsolute(c) ==> r[0] == "/"
    ensures IsAbsolute(c) ==> forall j | 0 <= j < |r| :: IsAbsolute(r[j])
    decreases |c| - i
  {
    if i == |c| then [c]
    else if c[i] == '/' then [Cut(c, i)] + Split(c, i + 1)
    else Split(c, i + 1)
  }

  /** The paths checked for `path`, root first when it is absolute. */
  function Prefixes(path: string): (r: seq<string>)
    ensures |r| >= 1 && r[|r| - 1] == CStr(path)
    ensures IsAbsolute(path) ==> r[0] == "/"
    ensures IsAbsolute(path) ==> forall j | 0 <= j < |r| :: IsAbsolute(r[j])
  {
    var c := CStr(path);
    assert IsAbsolute(path) ==> |c| > 0 && c[0] == path[0];
    Split(c, 0)
  }

  /** The filesystem as the verifier observes it. */
  datatype Sys = Sys(
    meta: map<string, Stat>,        // what lstat reports, by absolute path
    chdir: map<string, string>,     // the directory chdir enters, by absolute path
    getwdFails: set<string>,        // directories getwd cannot name
    unopenable: set<string>,        // working directories where open(".") fails
    unrestorable: set<string>       // saved directories fchdir cannot return to
  )

  /** The path the kernel resolves `p` to from working directory `cwd`. */
  function Resolve(cwd: string, p: string): string
  {
    if IsAbsolute(p) then p
    else if cwd == "/" then cwd + p
    else cwd + "/" + p
  }

  /** `lstat(p)`, which fails on the empty path and on missing paths. */
  function Lstat(sys: Sys, cwd: string, p: string): (r: Option<Stat>)
    ensures p == "" ==> r == None
    ensures IsAbsolute(p) ==> r == (if p in sys.meta then Some(sys.meta[p]) else None)
    ensures r.Some? ==> Resolve(cwd, p) in sys.meta && r.value == sys.meta[Resolve(cwd, p)]
  {
    if p == "" then None
    else
      var a := Resolve(cwd, p);
      if a in sys.meta then Some(sys.meta[a]) else None
  }

  predicate LinkAt(sys: Sys, p: string)
  {
    p in sys.meta && IsLink(sys.meta[p])
  }

  /** `getwd` reports an absolute path none of whose components is a
      symbolic link; every directory `chdir` can enter has such a name. */
  ghost predicate Canonical(sys: Sys)
  {
    forall a | a in sys.chdir ::
      forall q | q in Prefixes(sys.chdir[a]) :: IsAbsolute(q) && !LinkAt(sys, q)
  }

  /** The process state a check reads and writes. */
  datatype Proc = Proc(cache: Option<set<string>>, cwd: string)

  /** A verdict, the state afterwards, and the number of lstat calls made. */
  datatype Checked = Checked(verdict: Verdict, after: Proc, lstats: nat)

  /** `strhash_add` of the sigil under `p`: a NULL cache stays NULL, any
      other gains `p`. */
  function Remember(cache: Option<set<string>>, p: string): (r: Option<set<string>>)
    ensures r.None? <==> cache.None?
    ensures cache.Some? ==> r.value == cache.value + {p}
  {
    match cache
    case None => None
    case Some(c) => Some(c + {p})
  }

  /** `cache != NULL && strhash_haskey(cache, p)`: the cache is not NULL
      and remembering `p` again would add nothing to it. */
  function Cached(s: Proc, p: string): (b: bool)
    ensures b <==> s.cache.Some? && Remember(s.cache, p).value <= s.cache.value
  {
    s.cache.Some? && p in s.cache.value
  }

  /** The cache of `after` extends that of `before` (or both are NULL). */
  predicate Grows(before: Proc, after: Proc)
  {
    (before.cache.None? <==> after.cache.None?) &&
    (before.cache.Some? ==> before.cache.value <= after.cache.value)
  }

  /** `security_check_path_stat`. `followed` holds on the path of a resolved
      link target, which the filesystem guarantees is not itself a link. */
  function CheckStat(sys: Sys, s: Proc, p: string, followed: bool): (c: Checked)
    requires Canonical(sys)
    requires followed ==> IsAbsolute(p) && !LinkAt(sys, p)
    ensures Grows(s, c.after)
    ensures c.lstats == 0 <==> Cached(s, p)
    ensures Cached(s, p) ==> c == Checked(S_OK, s, 0)
    ensures c.verdict == S_OK ==> c.after.cwd == s.cwd && (s.cache.Some? ==> Cached(c.after, p))
    ensures c.after.cwd != s.cwd ==> c.verdict == S_ERROR
    ensures !Cached(s, p) && Lstat(sys, s.cwd, p).None? ==> c == Checked(S_ERROR, s, 1)
    ensures !Cached(s, p) && Lstat(sys, s.cwd, p).Some? && ReviewStat(Lstat(sys, s.cwd, p).value) != S_OK ==>
              c == Checked(ReviewStat(Lstat(sys, s.cwd, p).value), s, 1)
    ensures !Cached(s, p) && Lstat(sys, s.cwd, p).Some? && ReviewStat(Lstat(sys, s.cwd, p).value) == S_OK
              && !IsLink(Lstat(sys, s.cwd, p).value) ==>
              c == Checked(S_OK, s.(cache := Remember(s.cache, p)), 1)
    decreases if followed then 0 else 1, 0, 0
  {
    if Cached(s, p) then Checked(S_OK, s, 0)
    else
      match Lstat(sys, s.cwd, p)
      case None => Checked(S_ERROR, s, 1)
      case Some(st) =>
        var v := ReviewStat(st);
        if v != S_OK then Checked(v, s, 1)
        else if !IsLink(st) then Checked(S_OK, s.(cache := Remember(s.cache, p)), 1)
        else if s.cwd in sys.unopenable then Checked(S_ERROR, s, 1)
        else
          var a := Resolve(s.cwd, p);
          if a !in sys.chdir then Checked(S_ERROR, s, 1)
          else
            var target := sys.chdir[a];
            if target in sys.getwdFails then Checked(S_ERROR, s.(cwd := target), 1)
            else
              var inner := CheckInner(sys, s.(cwd := target), target, true);
              if s.cwd in sys.unrestorable then Checked(S_ERROR, inner.after, 1 + inner.lstats)
              else
                var cache := if inner.verdict == S_OK then Remember(inner.after.cache, p) else inner.after.cache;
                Checked(inner.verdict, Proc(cache, s.cwd), 1 + inner.lstats)
  }

  /** The loop of `security_check_path_inner` over the remaining prefixes:
      it stops at the first verdict other than S_OK and otherwise returns
      the verdict of the last prefix. */
  function CheckEach(sys: Sys, s: Proc, ps: seq<string>, followed: bool): (c: Checked)
    requires Canonical(sys)
    requires followed ==> forall q | q in ps :: IsAbsolute(q) && !LinkAt(sys, q)
    ensures Grows(s, c.after)
    ensures c.verdict == S_OK ==> c.after.cwd == s.cwd
    ensures c.verdict == S_OK && s.cache.Some? ==> forall q | q in ps :: Cached(c.after, q)
    ensures c.after.cwd != s.cwd ==> c.verdict == S_ERROR
    decreases if followed then 0 else 1, 1, |ps|
  {
    if |ps| == 0 then Checked(S_OK, s, 0)
    else
      var c := CheckStat(sys, s, ps[0], followed);
      if c.verdict != S_OK || |ps| == 1 then c
      else
        var rest := CheckEach(sys, c.after, ps[1..], followed);
        Checked(rest.verdict, rest.after, c.lstats + rest.lstats)
  }

  /** `security_check_path_inner`. */
  function CheckInner(sys: Sys, s: Proc, path: string, followed: bool): (c: Checked)
    requires Canonical(sys)
    requires followed ==> forall q | q in Prefixes(path) :: IsAbsolute(q) && !LinkAt(sys, q)
    ensures Grows(s, c.after)
    ensures c.verdict == S_OK ==> c.after.cwd == s.cwd
    ensures c.verdict == S_OK && s.cache.Some? ==> forall q | q in Prefixes(path) :: Cached(c.after, q)
    ensures c.after.cwd != s.cwd ==> c.verdict == S_ERROR
    decreases if followed then 0 else 1, 2, 0
  {
    CheckEach(sys, s, Prefixes(path), followed)
  }

  /** `security_check_path`: the walk over a private copy of `path`. */
  function CheckPath(sys: Sys, s: Proc, path: string): (c: Checked)
    requires Canonical(sys)
    ensures Grows(s, c.after)
    ensures c.verdict == S_OK ==> c.after.cwd == s.cwd
    ensures c.verdict == S_OK && s.cache.Some? ==> forall q | q in Prefixes(path) :: Cached(c.after, q)
    ensures c.after.cwd != s.cwd ==> c.verdict == S_ERROR
  {
    CheckInner(sys, s, path, false)
  }
}

=== FILE: security_proofs.dfy ===
/**
 Properties of the path-trust verifier: the shape of the prefix walk, the
 equivalence between the stateful walk and checking each prefix on its own,
 and the fact that the trust cache only saves work.
 */
module SecurityProofs {
  import opened Wrappers
  import opened Security

  // ----- The verdict codes -----

  /** The codes overlap as bit patterns, so an OR of them cannot be decoded:
      a bad owner adds nothing once the group is bad, and world-writable adds
      nothing once the entry is group-writable. */
  lemma VerdictsDoNotDecode()
    ensures S_OWNER_NOT_ROOT | S_GROUP_NOT_ROOT == S_GROUP_NOT_ROOT
    ensures S_WORLD_WRITABLE | S_GROUP_WRITABLE == S_GROUP_WRITABLE
    ensures ReviewStat(Stat(1, 1, 0, 0, 0, 0)) == ReviewStat(Stat(0, 1, 0, 0, 0, 0))
    ensures ReviewStat(Stat(0, 0, 0x12, 0, 0, 0)) == ReviewStat(Stat(0, 0, 0x10, 0, 0, 0))
  {
  }

  /** A symbolic link whose permission bits read 0777, as Linux reports for
      every link, fails the review as group- and world-writable. */
  lemma OpenLinkRejected(uid: nat, gid: nat, dev: nat, ino: nat, mtime: int)
    ensures var st := Stat(uid, gid, 0xA1FF, dev, ino, mtime);
            IsLink(st) && ReviewStat(st) & S_GROUP_WRITABLE == S_GROUP_WRITABLE && ReviewStat(st) != S_OK
  {
  }

  // ----- The prefix walk -----

  lemma PrefixesNest(a: string, b: string, c: string)
    requires a <= c && b <= c && |a| <= |b|
    ensures a <= b
  {
    assert a == c[..|a|] && b == c[..|b|];
  }

  /** One step of the cursor: a slash contributes its cut. */
  lemma SplitStep(c: string, i: nat)
    requires i < |c|
    ensures Split(c, i) == (if c[i] == '/' then [Cut(c, i)] else []) + Split(c, i + 1)
  {
  }

  /** A path checked from the cursor, other than the slash under it, is
      checked after the cursor's step. */
  lemma SplitUnshift(c: string, i: nat, j: nat) returns (j': nat)
    requires i < |c| && j < |Split(c, i)| && !(c[i] == '/' && j == 0)
    ensures j' < |Split(c, i + 1)| && Split(c, i)[j] == Split(c, i + 1)[j']
    ensures j' == if c[i] == '/' then j - 1 else j
    ensures j < |Split(c, i)| - 1 ==> j' < |Split(c, i + 1)| - 1
  {
    SplitStep(c, i);
    j' := if c[i] == '/' then j - 1 else j;
  }

  /** A slash under the cursor is checked first. */
  lemma SlashAtCursor(c: string, i: nat)
    requires i < |c| && c[i] == '/'
    ensures 0 < |Split(c, i)| - 1 && Split(c, i)[0] == Cut(c, i)
  {
    SplitStep(c, i);
  }

  /** Every path checked is a prefix of the C string at least `i` long,
      except the root checked for a leading slash. */
  lemma {:induction false} SplitEntries(c: string, i: nat, j: nat)
    requires i <= |c| && j < |Split(c, i)|
    ensures Split(c, i)[j] <= c
    ensures i <= |Split(c, i)[j]|
    decreases |c| - i
  {
    if i == |c| {
      assert Split(c, i) == [c];
    } else {
      SplitStep(c, i);
      if c[i] == '/' && j == 0 {
        CutIsPrefix(c, i);
      } else {
        var j' := if c[i] == '/' then j - 1 else j;
        SplitEntries(c, i + 1, j');
        assert Split(c, i)[j] == Split(c, i + 1)[j'];
      }
    }
  }

  /** The cut at a slash is a prefix of the string, as long as the slash's
      index; the root cut is the string's own leading slash. */
  lemma CutIsPrefix(c: string, k: nat)
    requires k < |c| && c[k] == '/'
    ensures Cut(c, k) <= c && k <= |Cut(c, k)| <= k + 1
  {
    if k == 0 {
      assert Cut(c, k) == c[..1];
    }
  }

  /** The prefixes are checked root first, each one a prefix of the next. */
  lemma {:induction false} SplitOrdered(c: string, i: nat, j: nat, l: nat)
    requires i <= |c| && j < l < |Split(c, i)|
    ensures Split(c, i)[j] <= Split(c, i)[l]
    decreases |c| - i
  {
    if i == |c| {
      assert false;
    } else if c[i] == '/' && j == 0 {
      SlashAtCursor(c, i);
      var l' := SplitUnshift(c, i, l);
      SplitEntries(c, i + 1, l');
      CutIsPrefix(c, i);
      PrefixesNest(Cut(c, i), Split(c, i)[l], c);
    } else {
      var j' := SplitUnshift(c, i, j);
      var l' := SplitUnshift(c, i, l);
      SplitOrdered(c, i + 1, j', l');
    }
  }

  /** The indices of the slashes of `c` from `i` on, in increasing order. */
  function Slashes(c: string, i: nat): (ks: seq<nat>)
    requires i <= |c|
    ensures forall j | 0 <= j < |ks| :: i <= ks[j] < |c| && c[ks[j]] == '/'
    decreases |c| - i
  {
    if i == |c| then []
    else if c[i] == '/' then [i] + Slashes(c, i + 1)
    else Slashes(c, i + 1)
  }

  lemma {:induction false} SlashesIncrease(c: string, i: nat, j: nat, l: nat)
    requires i <= |c| && j < l < |Slashes(c, i)|
    ensures Slashes(c, i)[j] < Slashes(c, i)[l]
    decreases |c| - i
  {
    if c[i] == '/' {
      if j > 0 {
        SlashesIncrease(c, i + 1, j - 1, l - 1);
      }
    } else {
      SlashesIncrease(c, i + 1, j, l);
    }
  }

  lemma {:induction false} SlashesComplete(c: string, i: nat, k: nat)
    requires i <= k < |c| && c[k] == '/'
    ensures k in Slashes(c, i)
    decreases k - i
  {
    if k > i {
      SlashesComplete(c, i + 1, k);
    }
  }

  /** The walk checks one cut per slash, then the whole string, and the
      `j`-th cut is the one at the `j`-th slash. */
  lemma {:induction false} SplitAtSlashes(c: string, i: nat, j: nat)
    requires i <= |c|
    ensures |Split(c, i)| == |Slashes(c, i)| + 1
    ensures j < |Slashes(c, i)| ==> Split(c, i)[j] == Cut(c, Slashes(c, i)[j])
    decreases |c| - i
  {
    if i < |c| {
      SplitStep(c, i);
      if c[i] == '/' {
        SplitAtSlashes(c, i + 1, if j > 0 then j - 1 else 0);
      } else {
        SplitAtSlashes(c, i + 1, j);
      }
    }
  }

  /** The paths checked for a C string: one per slash, in the order of the
      slashes (`ks` lists them), each a prefix of every later one, and the
      whole string last. */
  lemma SplitShape(c: string) returns (ks: seq<nat>)
    ensures |ks| == |Split(c, 0)| - 1
    ensures forall j, l | 0 <= j < l < |ks| :: ks[j] < ks[l]
    ensures forall k | 0 <= k < |c| && c[k] == '/' :: k in ks
    ensures forall j | 0 <= j < |ks| :: ks[j] < |c| && c[ks[j]] == '/' && Split(c, 0)[j] == Cut(c, ks[j])
    ensures forall j, l | 0 <= j < l < |Split(c, 0)| :: Split(c, 0)[j] <= Split(c, 0)[l]
    ensures Split(c, 0)[|Split(c, 0)| - 1] == c
  {
    ks := Slashes(c, 0);
    var r := Split(c, 0);
    SplitAtSlashes(c, 0, 0);
    forall j | 0 <= j < |ks| ensures ks[j] < |c| && c[ks[j]] == '/' && r[j] == Cut(c, ks[j]) {
      SplitAtSlashes(c, 0, j);
    }
    forall j, l | 0 <= j < l < |ks| ensures ks[j] < ks[l] {
      SlashesIncrease(c, 0, j, l);
    }
    forall k | 0 <= k < |c| && c[k] == '/' ensures k in ks {
      SlashesComplete(c, 0, k);
    }
    forall j, l | 0 <= j < l < |r| ensures r[j] <= r[l] {
      SplitOrdered(c, 0, j, l);
    }
  }

  /** The same shape for the paths checked for any path, over its C string. */
  lemma PrefixesShape(path: string) returns (ks: seq<nat>)
    ensures var r := Prefixes(path);
            var c := CStr(path);
            && |ks| == |r| - 1
            && (forall j, l | 0 <= j < l < |ks| :: ks[j] < ks[l])
            && (forall k | 0 <= k < |c| && c[k] == '/' :: k in ks)
            && (forall j | 0 <= j < |ks| :: ks[j] < |c| && c[ks[j]] == '/' && r[j] == Cut(c, ks[j]))
            && (forall j, l | 0 <= j < l < |r| :: r[j] <= r[l])
            && r[|r| - 1] == c
  {
    ks := SplitShape(CStr(path));
    assert Prefixes(path) == Split(CStr(path), 0);
  }

  /** A relative path is never anchored at the root: "/" is not checked. */
  lemma RelativePathSkipsRoot(path: string)
    requires |path| > 0 && path[0] != '/'
    ensures "/" !in Prefixes(path)
  {
    var c := CStr(path);
    assert Prefixes(path) == Split(c, 0);
    forall j | 0 <= j < |Split(c, 0)| ensures Split(c, 0)[j] != "/" {
      SplitEntries(c, 0, j);
    }
  }

  /** For the path "/" the root is checked twice: once at its slash and
      once as the whole string. */
  lemma RootCheckedTwice()
    ensures Prefixes("/") == ["/", "/"]
  {
    assert CStr("/") == "/";
    assert Split("/", 1) == ["/"];
  }

  // ----- Checking each prefix in isolation -----

  /** The verdict for one path with no cache, from working directory `cwd`. */
  function Isolated(sys: Sys, cwd: string, q: string, followed: bool): Verdict
    requires Canonical(sys)
    requires followed ==> IsAbsolute(q) && !LinkAt(sys, q)
  {
    CheckStat(sys, Proc(None, cwd), q, followed).verdict
  }

  ghost predicate Secure(sys: Sys, cwd: string, q: string)
    requires Canonical(sys)
  {
    Isolated(sys, cwd, q, false) == S_OK
  }

  /** The verdicts of the paths `ps`, each checked on its own. */
  function Verdicts(sys: Sys, cwd: string, ps: seq<string>, followed: bool): (vs: seq<Verdict>)
    requires Canonical(sys)
    requires followed ==> forall q | q in ps :: IsAbsolute(q) && !LinkAt(sys, q)
    ensures |vs| == |ps|
    ensures forall j | 0 <= j < |ps| :: vs[j] == Isolated(sys, cwd, ps[j], followed)
  {
    seq(|ps|, j requires 0 <= j < |ps| => assert ps[j] in ps; Isolated(sys, cwd, ps[j], followed))
  }

  /** The first verdict in `vs` other than S_OK, or S_OK when there is none. */
  function FirstFailed(vs: seq<Verdict>): (v: Verdict)
    ensures v == S_OK <==> forall j | 0 <= j < |vs| :: vs[j] == S_OK
  {
    if |vs| == 0 then S_OK
    else if vs[0] != S_OK then vs[0]
    else
      assert forall j | 1 <= j < |vs| :: vs[j] == vs[1..][j - 1];
      FirstFailed(vs[1..])
  }

  /** A verdict other than S_OK from FirstFailed is one at an index all of
      whose predecessors are S_OK; `j` is that index. */
  lemma {:induction false} FirstFailedIsFirst(vs: seq<Verdict>) returns (j: nat)
    requires FirstFailed(vs) != S_OK
    ensures j < |vs| && vs[j] == FirstFailed(vs)
    ensures forall l | 0 <= l < j :: vs[l] == S_OK
  {
    if vs[0] == S_OK {
      var j' := FirstFailedIsFirst(vs[1..]);
      j := j' + 1;
      forall l | 0 < l < j ensures vs[l] == S_OK {
        assert vs[l] == vs[1..][l - 1];
      }
    } else {
      j := 0;
    }
  }

  /** The verdict of the first path that fails when each is checked on its own. */
  function FirstFailure(sys: Sys, cwd: string, ps: seq<string>, followed: bool): (v: Verdict)
    requires Canonical(sys)
    requires followed ==> forall q | q in ps :: IsAbsolute(q) && !LinkAt(sys, q)
    ensures v == S_OK <==> forall j | 0 <= j < |ps| :: Isolated(sys, cwd, ps[j], followed) == S_OK
  {
    FirstFailed(Verdicts(sys, cwd, ps, followed))
  }

  /** A failing FirstFailure is the verdict of a path all of whose
      predecessors pass on their own; `j` is that path's index. */
  lemma FirstFailureIsFirst(sys: Sys, cwd: string, ps: seq<string>, followed: bool) returns (j: nat)
    requires Canonical(sys)
    requires followed ==> forall q | q in ps :: IsAbsolute(q) && !LinkAt(sys, q)
    requires FirstFailure(sys, cwd, ps, followed) != S_OK
    ensures j < |ps| && Isolated(sys, cwd, ps[j], followed) == FirstFailure(sys, cwd, ps, followed)
    ensures forall l | 0 <= l < j :: Isolated(sys, cwd, ps[l], followed) == S_OK
  {
    var vs := Verdicts(sys, cwd, ps, followed);
    j := FirstFailedIsFirst(vs);
    forall l | 0 <= l < j ensures Isolated(sys, cwd, ps[l], followed) == S_OK {
      assert vs[l] == S_OK;
    }
  }

  /** FirstFailure looks at the first path, then at the rest. */
  lemma FirstFailureStep(sys: Sys, cwd: string, ps: seq<string>, followed: bool)
    requires Canonical(sys) && |ps| > 0
    requires followed ==> forall q | q in ps :: IsAbsolute(q) && !LinkAt(sys, q)
    ensures Isolated(sys, cwd, ps[0], followed) != S_OK ==>
              FirstFailure(sys, cwd, ps, followed) == Isolated(sys, cwd, ps[0], followed)
    ensures Isolated(sys, cwd, ps[0], followed) == S_OK ==>
              FirstFailure(sys, cwd, ps, followed) == FirstFailure(sys, cwd, ps[1..], followed)
  {
    assert Verdicts(sys, cwd, ps, followed)[1..] == Verdicts(sys, cwd, ps[1..], followed);
  }

  /** Without a cache, the stateful walk returns exactly the verdict of the
      first prefix that fails on its own: a passing check leaves the working
      directory where it was, so no check sees another's effects. */
  lemma {:induction false} UncachedIsFirstFailure(sys: Sys, cwd: string, ps: seq<string>, followed: bool)
    requires Canonical(sys)
    requires followed ==> forall q | q in ps :: IsAbsolute(q) && !LinkAt(sys, q)
    ensures CheckEach(sys, Proc(None, cwd), ps, followed).verdict == FirstFailure(sys, cwd, ps, followed)
    decreases |ps|
  {
    if |ps| > 0 {
      FirstFailureStep(sys, cwd, ps, followed);
      var c := CheckStat(sys, Proc(None, cwd), ps[0], followed);
      if c.verdict == S_OK && |ps| > 1 {
        assert c.after == Proc(None, cwd);
        UncachedIsFirstFailure(sys, cwd, ps[1..], followed);
      }
    }
  }

  /** `security_check_path` without a cache returns S_OK exactly when every
      prefix, root first, passes on its own. */
  lemma UncachedCheckPath(sys: Sys, cwd: string, path: string)
    requires Canonical(sys)
    ensures CheckPath(sys, Proc(None, cwd), path).verdict == S_OK <==>
            forall q | q in Prefixes(path) :: Secure(sys, cwd, q)
  {
    var ps := Prefixes(path);
    UncachedIsFirstFailure(sys, cwd, ps, false);
    assert CheckPath(sys, Proc(None, cwd), path) == CheckEach(sys, Proc(None, cwd), ps, false);
    if FirstFailure(sys, cwd, ps, false) == S_OK {
      forall q | q in ps ensures Secure(sys, cwd, q) {
        var j :| 0 <= j < |ps| && ps[j] == q;
      }
    } else {
      var j := FirstFailureIsFirst(sys, cwd, ps, false);
      assert ps[j] in ps && !Secure(sys, cwd, ps[j]);
    }
  }

  /** Once a prefix fails, the prefixes after it are never examined. */
  lemma {:induction false} StopsAtFirstFailure(sys: Sys, s: Proc, ps: seq<string>, later: seq<string>, followed: bool)
    requires Canonical(sys)
    requires followed ==> forall q | q in ps + later :: IsAbsolute(q) && !LinkAt(sys, q)
    requires |ps| > 0 && CheckEach(sys, s, ps, followed).verdict != S_OK
    ensures CheckEach(sys, s, ps + later, followed) == CheckEach(sys, s, ps, followed)
    decreases |ps|
  {
    assert (ps + later)[0] == ps[0];
    var c := CheckStat(sys, s, ps[0], followed);
    if c.verdict == S_OK && |ps| > 1 {
      assert (ps + later)[1..] == ps[1..] + later;
      StopsAtFirstFailure(sys, c.after, ps[1..], later, followed);
    }
  }

  // ----- Links -----

  /** The verdict for an absolute path that is not a link depends neither on
      the working directory nor on how the path was reached. */
  lemma AbsoluteVerdictFixed(sys: Sys, x: string, y: string, q: string, followed: bool)
    requires Canonical(sys)
    requires IsAbsolute(q) && !LinkAt(sys, q)
    ensures CheckStat(sys, Proc(None, x), q, followed).verdict == Isolated(sys, y, q, false)
  {
  }

  /** A link passes only if every ancestor of the directory it leads to
      passes: a trusted link to an untrusted directory is rejected. */
  lemma LinkTargetMustBeTrusted(sys: Sys, cwd: string, p: string)
    requires Canonical(sys)
    requires Lstat(sys, cwd, p).Some? && IsLink(Lstat(sys, cwd, p).value)
    requires Resolve(cwd, p) in sys.chdir
    requires Isolated(sys, cwd, p, false) == S_OK
    ensures forall q | q in Prefixes(sys.chdir[Resolve(cwd, p)]) :: Secure(sys, cwd, q)
  {
    var t := sys.chdir[Resolve(cwd, p)];
    var ps := Prefixes(t);
    LinkPassed(sys, cwd, p);
    assert CheckInner(sys, Proc(None, t), t, true) == CheckEach(sys, Proc(None, t), ps, true);
    UncachedIsFirstFailure(sys, t, ps, true);
    PassingEverywhere(sys, t, cwd, ps);
  }

  /** A link passes on its own only when its target is entered, named and
      left again, and the target's own walk passes. */
  lemma LinkPassed(sys: Sys, cwd: string, p: string)
    requires Canonical(sys)
    requires Lstat(sys, cwd, p).Some? && IsLink(Lstat(sys, cwd, p).value)
    requires Isolated(sys, cwd, p, false) == S_OK
    ensures Resolve(cwd, p) in sys.chdir
    ensures var t := sys.chdir[Resolve(cwd, p)];
            && cwd !in sys.unopenable && t !in sys.getwdFails && cwd !in sys.unrestorable
            && CheckInner(sys, Proc(None, t), t, true).verdict == S_OK
  {
    var s := Proc(None, cwd);
    assert ReviewStat(Lstat(sys, cwd, p).value) == S_OK;
    assert cwd !in sys.unopenable;
    assert Resolve(cwd, p) in sys.chdir;
    var t := sys.chdir[Resolve(cwd, p)];
    assert t !in sys.getwdFails;
    assert cwd !in sys.unrestorable;
    var inner := CheckInner(sys, s.(cwd := t), t, true);
    assert CheckStat(sys, s, p, false).verdict == inner.verdict;
  }

  /** The converse of LinkPassed: once `open(".")`, `chdir`, `getwd` and
      `fchdir` all succeed, a link gets the verdict of its target's walk,
      the working directory is restored, and a pass is cached. */
  lemma LinkFollowed(sys: Sys, s: Proc, p: string)
    requires Canonical(sys) && !Cached(s, p)
    requires Lstat(sys, s.cwd, p).Some? && ReviewStat(Lstat(sys, s.cwd, p).value) == S_OK && IsLink(Lstat(sys, s.cwd, p).value)
    requires s.cwd !in sys.unopenable && Resolve(s.cwd, p) in sys.chdir
    requires sys.chdir[Resolve(s.cwd, p)] !in sys.getwdFails && s.cwd !in sys.unrestorable
    ensures var t := sys.chdir[Resolve(s.cwd, p)];
            var inner := CheckInner(sys, s.(cwd := t), t, true);
            var c := CheckStat(sys, s, p, false);
            && c.verdict == inner.verdict && c.after.cwd == s.cwd && c.lstats == 1 + inner.lstats
            && (c.verdict == S_OK && s.cache.Some? ==> Cached(c.after, p))
            && c.after.cache == (if c.verdict == S_OK then Remember(inner.after.cache, p) else inner.after.cache)
  {
  }

  /** A link that passes review fails with S_ERROR whenever a directory call
      fails: `open(".")` or `chdir` with nothing changed, `getwd` from inside
      the target, and `fchdir` without the link being remembered. A link
      `chdir` cannot enter covers dangling links, links to files and link
      loops. */
  lemma LinkCallFailures(sys: Sys, s: Proc, p: string)
    requires Canonical(sys) && !Cached(s, p)
    requires Lstat(sys, s.cwd, p).Some? && ReviewStat(Lstat(sys, s.cwd, p).value) == S_OK && IsLink(Lstat(sys, s.cwd, p).value)
    ensures var c := CheckStat(sys, s, p, false);
            var a := Resolve(s.cwd, p);
            && (s.cwd in sys.unopenable ==> c == Checked(S_ERROR, s, 1))
            && (a !in sys.chdir ==> c == Checked(S_ERROR, s, 1))
            && (s.cwd !in sys.unopenable && a in sys.chdir && sys.chdir[a] in sys.getwdFails ==>
                  c == Checked(S_ERROR, s.(cwd := sys.chdir[a]), 1))
            && (s.cwd in sys.unrestorable ==> c.verdict == S_ERROR && !Cached(c.after, p))
  {
    var a := Resolve(s.cwd, p);
    if s.cwd !in sys.unopenable && a in sys.chdir && sys.chdir[a] !in sys.getwdFails {
      var t := sys.chdir[a];
      FollowedWalk(sys, s.(cwd := t), Prefixes(t));
      assert p !in Prefixes(t) by {
        if IsAbsolute(p) {
          assert a == p && LinkAt(sys, p);
        }
      }
    }
  }

  /** When only `fchdir` fails, a link's check is S_ERROR with what the
      target walk left: its cache and lstats, and the process still inside
      the target. */
  lemma FchdirFailureStaysInTarget(sys: Sys, s: Proc, p: string)
    requires Canonical(sys) && !Cached(s, p)
    requires Lstat(sys, s.cwd, p).Some? && ReviewStat(Lstat(sys, s.cwd, p).value) == S_OK && IsLink(Lstat(sys, s.cwd, p).value)
    requires s.cwd !in sys.unopenable && Resolve(s.cwd, p) in sys.chdir
    requires sys.chdir[Resolve(s.cwd, p)] !in sys.getwdFails && s.cwd in sys.unrestorable
    ensures var t := sys.chdir[Resolve(s.cwd, p)];
            var inner := CheckInner(sys, s.(cwd := t), t, true);
            var c := CheckStat(sys, s, p, false);
            c == Checked(S_ERROR, inner.after, 1 + inner.lstats) && c.after.cwd == t
  {
    var t := sys.chdir[Resolve(s.cwd, p)];
    FollowedWalk(sys, s.(cwd := t), Prefixes(t));
  }

  /** The walk of a link target meets no links, so it never leaves the
      directory it starts in and caches nothing but the paths it is given. */
  lemma {:induction false} FollowedWalk(sys: Sys, s: Proc, ps: seq<string>)
    requires Canonical(sys)
    requires forall q | q in ps :: IsAbsolute(q) && !LinkAt(sys, q)
    ensures CheckEach(sys, s, ps, true).after.cwd == s.cwd
    ensures forall x | Cached(CheckEach(sys, s, ps, true).after, x) :: Cached(s, x) || x in ps
    decreases |ps|
  {
    if |ps| > 0 {
      var c := CheckStat(sys, s, ps[0], true);
      assert ps[0] in ps;
      assert c.after == s || c.after == s.(cache := Remember(s.cache, ps[0]));
      if c.verdict == S_OK && |ps| > 1 {
        FollowedWalk(sys, c.after, ps[1..]);
        assert forall q | q in ps[1..] :: q in ps;
      }
    }
  }

  /** A path all of whose prefixes exist, are not links and pass review
      passes the verifier. */
  lemma TrustedPathPasses(sys: Sys, cwd: string, path: string)
    requires Canonical(sys)
    requires forall q | q in Prefixes(path) ::
               Lstat(sys, cwd, q).Some? && !IsLink(Lstat(sys, cwd, q).value) && ReviewStat(Lstat(sys, cwd, q).value) == S_OK
    ensures CheckPath(sys, Proc(None, cwd), path).verdict == S_OK
  {
    UncachedCheckPath(sys, cwd, path);
    forall q | q in Prefixes(path) ensures Secure(sys, cwd, q) {
      assert CheckStat(sys, Proc(None, cwd), q, false).verdict == S_OK;
    }
  }

  /** Paths that are absolute and not links pass from one working
      directory exactly when they pass from any other. */
  lemma PassingEverywhere(sys: Sys, t: string, cwd: string, ps: seq<string>)
    requires Canonical(sys)
    requires forall q | q in ps :: IsAbsolute(q) && !LinkAt(sys, q)
    requires FirstFailure(sys, t, ps, true) == S_OK
    ensures forall q | q in ps :: Secure(sys, cwd, q)
  {
    forall q | q in ps ensures Secure(sys, cwd, q) {
      var j :| 0 <= j < |ps| && ps[j] == q;
      assert Isolated(sys, t, ps[j], true) == S_OK;
      AbsoluteVerdictFixed(sys, t, cwd, q, true);
    }
  }

  // ----- The cache only saves work -----

  /** Every cached path passes its check without the cache. */
  ghost predicate ValidCache(sys: Sys, cwd: string, cache: set<string>)
    requires Canonical(sys)
  {
    forall k | k in cache :: Secure(sys, cwd, k)
  }

  /** Given a cache that holds only paths which pass, checking one path with
      the cache gives the verdict and working directory of checking it
      without, and the cache afterwards again holds only paths which pass.
      `cwd0` is the caller's directory; inside a link, where the directory
      differs, only absolute non-link paths are checked. */
  lemma {:induction false} StatCacheTransparent(sys: Sys, cache: set<string>, cwd0: string, cwd: string, p: string, followed: bool)
    requires Canonical(sys) && ValidCache(sys, cwd0, cache)
    requires followed ==> IsAbsolute(p) && !LinkAt(sys, p)
    requires !followed ==> cwd == cwd0
    ensures var a := CheckStat(sys, Proc(Some(cache), cwd), p, followed);
            var b := CheckStat(sys, Proc(None, cwd), p, followed);
            a.verdict == b.verdict && a.after.cwd == b.after.cwd && a.after.cache.Some? &&
            ValidCache(sys, cwd0, a.after.cache.value)
    decreases if followed then 0 else 1, 0, 0
  {
    var s := Proc(Some(cache), cwd);
    var a := CheckStat(sys, s, p, followed);
    var b := CheckStat(sys, Proc(None, cwd), p, followed);
    if followed {
      AbsoluteVerdictFixed(sys, cwd, cwd0, p, true);
    }
    if !followed && p !in cache && Lstat(sys, cwd, p).Some? && ReviewStat(Lstat(sys, cwd, p).value) == S_OK && IsLink(Lstat(sys, cwd, p).value) {
      LinkCacheTransparent(sys, cache, cwd, p);
    }
  }

  /** The symbolic-link case of `StatCacheTransparent`: the target's checks
      see the same verdicts with the cache as without it. */
  lemma {:induction false} LinkCacheTransparent(sys: Sys, cache: set<string>, cwd: string, p: string)
    requires Canonical(sys) && ValidCache(sys, cwd, cache) && p !in cache
    requires Lstat(sys, cwd, p).Some? && ReviewStat(Lstat(sys, cwd, p).value) == S_OK && IsLink(Lstat(sys, cwd, p).value)
    ensures var a := CheckStat(sys, Proc(Some(cache), cwd), p, false);
            var b := CheckStat(sys, Proc(None, cwd), p, false);
            a.verdict == b.verdict && a.after.cwd == b.after.cwd && a.after.cache.Some? &&
            ValidCache(sys, cwd, a.after.cache.value)
    decreases 0, 3, 0
  {
    var a := CheckStat(sys, Proc(Some(cache), cwd), p, false);
    var b := CheckStat(sys, Proc(None, cwd), p, false);
    if cwd in sys.unopenable || Resolve(cwd, p) !in sys.chdir {
      assert a == Checked(S_ERROR, Proc(Some(cache), cwd), 1);
    } else {
      var target := sys.chdir[Resolve(cwd, p)];
      if target in sys.getwdFails {
        assert a == Checked(S_ERROR, Proc(Some(cache), target), 1);
      } else {
        TargetCacheTransparent(sys, cache, cwd, p, target);
      }
    }
  }

  /** The case of `LinkCacheTransparent` where the process enters the
      link's target and checks it. */
  lemma {:induction false} TargetCacheTransparent(sys: Sys, cache: set<string>, cwd: string, p: string, target: string)
    requires Canonical(sys) && ValidCache(sys, cwd, cache) && p !in cache
    requires Lstat(sys, cwd, p).Some? && ReviewStat(Lstat(sys, cwd, p).value) == S_OK && IsLink(Lstat(sys, cwd, p).value)
    requires cwd !in sys.unopenable && Resolve(cwd, p) in sys.chdir
    requires target == sys.chdir[Resolve(cwd, p)] && target !in sys.getwdFails
    ensures var a := CheckStat(sys, Proc(Some(cache), cwd), p, false);
            var b := CheckStat(sys, Proc(None, cwd), p, false);
            a.verdict == b.verdict && a.after.cwd == b.after.cwd && a.after.cache.Some? &&
            ValidCache(sys, cwd, a.after.cache.value)
    decreases 0, 2, 0
  {
    var a := CheckStat(sys, Proc(Some(cache), cwd), p, false);
    var b := CheckStat(sys, Proc(None, cwd), p, false);
    EachCacheTransparent(sys, cache, cwd, target, Prefixes(target), true);
    var ina := CheckInner(sys, Proc(Some(cache), target), target, true);
    var inb := CheckInner(sys, Proc(None, target), target, true);
    if cwd in sys.unrestorable {
      assert a == Checked(S_ERROR, ina.after, 1 + ina.lstats);
      assert b.verdict == S_ERROR;
    } else if ina.verdict == S_OK {
      assert a.after == Proc(Some(ina.after.cache.value + {p}), cwd);
      assert b.verdict == S_OK;
      assert Isolated(sys, cwd, p, false) == S_OK;
      RememberSecure(sys, cwd, ina.after.cache.value, p);
    } else {
      assert a == Checked(ina.verdict, Proc(ina.after.cache, cwd), 1 + ina.lstats);
      assert b.verdict == inb.verdict;
    }
  }

  /** Remembering a path which passes keeps the cache valid. */
  lemma RememberSecure(sys: Sys, cwd: string, cache: set<string>, p: string)
    requires Canonical(sys) && ValidCache(sys, cwd, cache) && Secure(sys, cwd, p)
    ensures ValidCache(sys, cwd, cache + {p})
  {
  }

  lemma {:induction false} EachCacheTransparent(sys: Sys, cache: set<string>, cwd0: string, cwd: string, ps: seq<string>, followed: bool)
    requires Canonical(sys) && ValidCache(sys, cwd0, cache)
    requires followed ==> forall q | q in ps :: IsAbsolute(q) && !LinkAt(sys, q)
    requires !followed ==> cwd == cwd0
    ensures var a := CheckEach(sys, Proc(Some(cache), cwd), ps, followed);
            var b := CheckEach(sys, Proc(None, cwd), ps, followed);
            a.verdict == b.verdict && a.after.cwd == b.after.cwd && a.after.cache.Some? &&
            ValidCache(sys, cwd0, a.after.cache.value)
    decreases if followed then 0 else 1, 1, |ps|
  {
    if |ps| > 0 {
      StatCacheTransparent(sys, cache, cwd0, cwd, ps[0], followed);
      var a := CheckStat(sys, Proc(Some(cache), cwd), ps[0], followed);
      var b := CheckStat(sys, Proc(None, cwd), ps[0], followed);
      if a.verdict == S_OK && |ps| > 1 {
        assert b.after == Proc(None, cwd);
        EachCacheTransparent(sys, a.after.cache.value, cwd0, cwd, ps[1..], followed);
      }
    }
  }

  /** A check that fails never leaves its own path cached: in particular a
      link whose target fails, or whose directory cannot be restored, is not
      remembered. */
  lemma FailureNotCached(sys: Sys, cache: set<string>, cwd: string, p: string)
    requires Canonical(sys) && ValidCache(sys, cwd, cache)
    ensures var a := CheckStat(sys, Proc(Some(cache), cwd), p, false);
            a.verdict != S_OK ==> !Cached(a.after, p)
  {
    StatCacheTransparent(sys, cache, cwd, cwd, p, false);
  }

  /** `security_check_path` with a cache of passing paths returns S_OK
      exactly when every prefix passes on its own, and leaves a cache that
      again holds only passing paths. */
  lemma CheckPathWithCache(sys: Sys, cache: set<string>, cwd: string, path: string)
    requires Canonical(sys) && ValidCache(sys, cwd, cache)
    ensures var c := CheckPath(sys, Proc(Some(cache), cwd), path);
            && c.verdict == CheckPath(sys, Proc(None, cwd), path).verdict
            && (c.verdict == S_OK <==> forall q | q in Prefixes(path) :: Secure(sys, cwd, q))
            && c.after.cache.Some? && ValidCache(sys, cwd, c.after.cache.value)
  {
    EachCacheTransparent(sys, cache, cwd, cwd, Prefixes(path), false);
    UncachedCheckPath(sys, cwd, path);
  }

  // ----- Repeating a check -----

  /** When every path is already cached the walk succeeds with no lstat and
      no other effect. */
  lemma {:induction false} AllCachedNoWork(sys: Sys, s: Proc, ps: seq<string>, followed: bool)
    requires Canonical(sys)
    requires followed ==> forall q | q in ps :: IsAbsolute(q) && !LinkAt(sys, q)
    requires forall q | q in ps :: Cached(s, q)
    ensures CheckEach(sys, s, ps, followed) == Checked(S_OK, s, 0)
    decreases |ps|
  {
    if |ps| > 1 {
      AllCachedNoWork(sys, s, ps[1..], followed);
    }
  }

  /** Checking a path again with the cache a passing check left behind
      succeeds with no lstat and changes nothing. */
  lemma RecheckIsFree(sys: Sys, s: Proc, path: string)
    requires Canonical(sys) && s.cache.Some?
    requires CheckPath(sys, s, path).verdict == S_OK
    ensures var after := CheckPath(sys, s, path).after;
            CheckPath(sys, after, path) == Checked(S_OK, after, 0)
  {
    AllCachedNoWork(sys, CheckPath(sys, s, path).after, Prefixes(path), false);
  }

  // ----- The working directory is not always restored -----

  /** A sound directory: drwxr-xr-x root:root. */
  const Dir := Stat(0, 0, 0x41ED, 0, 2, 0)
  const Link := Stat(0, 0, 0xA1ED, 0, 3, 0)     // lrwxr-xr-x root:root

  /** A root-owned link to "/t" whose name getwd cannot report. */
  const GetwdFailure := Sys(map["/" := Dir, "/l" := Link], map["/l" := "/t"], {"/t"}, {}, {})

  /** A path one component below the root is checked as the root, then
      itself. */
  lemma TopLevelPrefixes(name: char)
    requires name != '/' && name != '\0'
    ensures Prefixes(['/', name]) == ["/", ['/', name]]
  {
    var c := ['/', name];
    assert CStr(c) == c;
    assert Split(c, 1) == [c];
  }

  lemma GetwdFailureCanonical()
    ensures Canonical(GetwdFailure)
  {
    var sys := GetwdFailure;
    TopLevelPrefixes('t');
    forall a | a in sys.chdir ensures forall q | q in Prefixes(sys.chdir[a]) :: IsAbsolute(q) && !LinkAt(sys, q) {
      assert a == "/l" && sys.chdir[a] == "/t";
    }
  }

  /** After `chdir` into a link's target succeeds and `getwd` fails, the
      check returns S_ERROR from inside the target: the working directory is
      not restored. */
  lemma GetwdFailureLeavesDirectory()
    ensures Canonical(GetwdFailure)
    ensures var c := CheckPath(GetwdFailure, Proc(None, "/"), "/l");
            c.verdict == S_ERROR && c.after.cwd == "/t"
  {
    var sys := GetwdFailure;
    GetwdFailureCanonical();
    TopLevelPrefixes('l');
    var s := Proc(None, "/");
    assert Lstat(sys, "/", "/") == Some(Dir);
    assert CheckStat(sys, s, "/", false) == Checked(S_OK, s, 1);
    assert Lstat(sys, "/", "/l") == Some(Link);
    assert ReviewStat(Link) == S_OK && IsLink(Link);
    assert CheckStat(sys, s, "/l", false) == Checked(S_ERROR, Proc(None, "/t"), 1);
    assert CheckEach(sys, s, ["/", "/l"], false) == Checked(S_ERROR, Proc(None, "/t"), 2);
  }
}

=== FILE: strhash.dfy ===
/**
 Model of the string hash table (`common/strhash.c`) used as the trust cache.

 The table is a sequence of buckets; each bucket stands for the singly linked
 chain hanging off one slot. Every search loop of the source tests the chain
 head and never advances to `next`, so a search terminates only when the bucket
 is empty or its head holds the key. The model keeps that behaviour: such a
 search returns `Spins`, and a new node is only ever written into an empty
 bucket, so no chain of a reachable table holds more than one node.
 */
module StrHash {
  import opened Wrappers
  import opened CTypes

  /** 2^64: `unsigned long` on an LP64 platform. */
  const WORD: nat := 0x1_0000_0000_0000_0000

  /** The starting value of djb2. */
  const DJB2_SEED: nat := 5381

  /** Characters that stand for the bytes of a C string: below 256. */
  predicate ByteChars(s: string)
  {
    forall i | 0 <= i < |s| :: s[i] as int < 256
  }

  /** A NUL-terminated C string, represented by its bytes before the NUL. */
  type CString = s: string | '\0' !in s && ByteChars(s)

  /** The value of a plain `char` byte once promoted to `int`: `char` is
      taken to be signed and 8 bits wide, as on x86-64. */
  function CharValue(c: char): (v: int)
    requires c as int < 256
    ensures -128 <= v < 128
    ensures c as int < 128 ==> v == c as int
    ensures c as int >= 128 ==> v == c as int - 256
  {
    if c as int < 128 then c as int else c as int - 256
  }

  /** djb2 continued from hash `h` over `s`, stopping at the first NUL.
      `(h << 5) + h + c` on `unsigned long` is `h * 33 + c` modulo 2^64. */
  function Djb2From(h: nat, s: string): (r: nat)
    requires h < WORD && ByteChars(s)
    ensures r < WORD
    decreases |s|
  {
    if |s| == 0 || s[0] == '\0' then h
    else Djb2From((h * 33 + CharValue(s[0])) % WORD, s[1..])
  }

  /** `strhash_djb2`. */
  function Djb2(s: string): (r: nat)
    requires ByteChars(s)
    ensures r < WORD
  {
    Djb2From(DJB2_SEED, s)
  }

  /** The loop of `strhash_djb2`, computing the hash a byte at a time. */
  method HashString(s: string) returns (h: nat)
    requires ByteChars(s)
    ensures h == Djb2(s)
    ensures h < WORD
  {
    h := DJB2_SEED;
    var i := 0;
    while i < |s| && s[i] != '\0'
      invariant 0 <= i <= |s|
      invariant h < WORD
      invariant Djb2From(h, s[i..]) == Djb2(s)
    {
      h := (h * 33 + CharValue(s[i])) % WORD;
      i := i + 1;
    }
  }

  /** The hash reads nothing past the first NUL. */
  lemma {:induction false} Djb2FromStopsAtNul(h: nat, s: string, k: nat)
    requires h < WORD && ByteChars(s)
    requires k < |s| && s[k] == '\0'
    ensures Djb2From(h, s) == Djb2From(h, s[..k])
    decreases k
  {
    if k > 0 && s[0] != '\0' {
      var h' := (h * 33 + CharValue(s[0])) % WORD;
      assert s[1..][k - 1] == '\0';
      Djb2FromStopsAtNul(h', s[1..], k - 1);
      assert s[..k][1..] == s[1..][..k - 1];
    }
  }

  /** Two strings that agree up to a common NUL terminator hash alike. */
  lemma Djb2DependsOnlyOnCString(s: string, t: string, k: nat)
    requires ByteChars(s) && ByteChars(t) && k < |s| && k < |t|
    requires s[k] == '\0' && t[k] == '\0'
    requires s[..k] == t[..k]
    ensures Djb2(s) == Djb2(t)
  {
    Djb2FromStopsAtNul(DJB2_SEED, s, k);
    Djb2FromStopsAtNul(DJB2_SEED, t, k);
  }

  /** One node of a chain: the cached hash, a copy of the key, the value. */
  datatype Node = Node(hash: nat, key: CString, value: Ptr)

  /** `struct strhash`: `table_size` is `|table|`. */
  datatype StrHash = StrHash(table: seq<seq<Node>>, items: int)

  /** The outcome of a call that may never return. */
  datatype Run<T> = Done(value: T) | Spins

  /** The slot `djb2(key) % table_size` every operation uses. */
  function Slot(t: StrHash, key: CString): (i: nat)
    requires |t.table| > 0
    ensures i < |t.table|
  {
    Djb2(key) % |t.table|
  }

  /** The keys stored anywhere in the table. */
  ghost function Keys(t: StrHash): set<CString>
  {
    set i, n | 0 <= i < |t.table| && n in t.table[i] :: n.key
  }

  /** The key/value pairs stored anywhere in the table. */
  ghost function Bindings(t: StrHash): set<(CString, Ptr)>
  {
    set i, n | 0 <= i < |t.table| && n in t.table[i] :: (n.key, n.value)
  }

  /** Some stored key other than `key` occupies the slot of `key`. */
  ghost predicate Collides(t: StrHash, key: CString)
    requires |t.table| > 0
  {
    exists k | k in Keys(t) :: k != key && Slot(t, k) == Slot(t, key)
  }

  /** The invariant of every table the operations can produce. */
  ghost predicate Valid(t: StrHash)
  {
    && |t.table| > 0
    && (forall i | 0 <= i < |t.table| :: |t.table[i]| <= 1)
    && (forall i, n | 0 <= i < |t.table| && n in t.table[i] ::
          n.hash == Djb2(n.key) && Slot(t, n.key) == i)
    && t.items == |Keys(t)|
  }

  /** In a valid table a key lives only at the head of its own slot. */
  lemma KeyAtSlotHead(t: StrHash, key: CString)
    requires Valid(t)
    ensures key in Keys(t) <==> |t.table[Slot(t, key)]| == 1 && t.table[Slot(t, key)][0].key == key
    ensures forall v :: (key, v) in Bindings(t) <==>
              |t.table[Slot(t, key)]| == 1 && t.table[Slot(t, key)][0].key == key && t.table[Slot(t, key)][0].value == v
  {
    var b := Slot(t, key);
    if |t.table[b]| == 1 {
      assert t.table[b][0] in t.table[b];
    }
  }

  /** `strhash_init`: `mem` is false when an allocation fails; a negative
      size makes `calloc` fail. */
  function Init(size: int, mem: bool): (r: Option<StrHash>)
    ensures r.Some? <==> mem && size >= 0
    ensures r.Some? ==> |r.value.table| == size && r.value.items == 0 && Keys(r.value) == {}
    ensures r.Some? && size > 0 ==> Valid(r.value)
  {
    if !mem || size < 0 then None
    else Some(StrHash(seq(size, _ => []), 0))
  }

  /** What the search loop shared by add, haskey and get finds. The loop
      only ever inspects the head node of the key's slot: an empty slot ends
      it, a head holding the key is a hit, and any other head is inspected
      again forever. */
  datatype Probe = Empty | Hit(node: Node) | Stuck

  function Search(t: StrHash, key: CString): (r: Probe)
    requires |t.table| > 0
    ensures r.Empty? <==> t.table[Slot(t, key)] == []
    ensures r.Hit? ==> r.node in t.table[Slot(t, key)] && r.node.key == key && r.node.hash == Djb2(key)
    ensures r.Stuck? ==> t.table[Slot(t, key)] != []
                         && (t.table[Slot(t, key)][0].hash != Djb2(key) || t.table[Slot(t, key)][0].key != key)
  {
    var h := Djb2(key);
    var b := t.table[h % |t.table|];
    if |b| == 0 then Empty
    else if b[0].hash == h && b[0].key == key then Hit(b[0])
    else Stuck
  }

  /** The search finds the key, finds an empty slot, or spins on a collision. */
  lemma SearchMeaning(t: StrHash, key: CString)
    requires Valid(t)
    ensures Search(t, key).Hit? <==> key in Keys(t)
    ensures Search(t, key).Hit? ==> (key, Search(t, key).node.value) in Bindings(t)
    ensures Search(t, key).Stuck? <==> Collides(t, key)
  {
    KeyAtSlotHead(t, key);
    var b := Slot(t, key);
    if |t.table[b]| == 1 {
      var n := t.table[b][0];
      assert n in t.table[b];
      assert n.key in Keys(t);
      if n.key != key {
        assert Slot(t, n.key) == b;
        assert Collides(t, key);
      }
    }
    if Collides(t, key) {
      var k :| k in Keys(t) && k != key && Slot(t, k) == Slot(t, key);
      KeyAtSlotHead(t, k);
    }
  }

  /** `strhash_add`: returns the table afterwards and the returned pointer.
      `mem` is false when the node allocation fails. */
  function Add(t: StrHash, key: CString, value: Ptr, mem: bool): (r: Run<(StrHash, Ptr)>)
    requires Valid(t)
    ensures r.Spins? <==> Collides(t, key)
    ensures r.Done? && key in Keys(t) ==> r.value.0 == t && (key, r.value.1) in Bindings(t)
    ensures r.Done? && key !in Keys(t) && !mem ==> r.value == (t, Null)
    ensures r.Done? && key !in Keys(t) && mem ==>
              && r.value.1 == value
              && Valid(r.value.0)
              && |r.value.0.table| == |t.table|
              && Keys(r.value.0) == Keys(t) + {key}
              && Bindings(r.value.0) == Bindings(t) + {(key, value)}
              && r.value.0.items == t.items + 1
  {
    SearchMeaning(t, key);
    match Search(t, key)
    case Stuck => Spins
    case Hit(n) => Done((t, n.value))
    case Empty =>
      if !mem then Done((t, Null))
      else
        var t' := Insert(t, key, value);
        AddFacts(t, key, value, t');
        Done((t', value))
  }

  /** Writing a fresh node into an empty slot. */
  function Insert(t: StrHash, key: CString, value: Ptr): StrHash
    requires |t.table| > 0
  {
    StrHash(t.table[Slot(t, key) := [Node(Djb2(key), key, value)]], t.items + 1)
  }

  /** The table after inserting into an empty slot. */
  lemma AddFacts(t: StrHash, key: CString, value: Ptr, t': StrHash)
    requires Valid(t)
    requires |t.table[Slot(t, key)]| == 0
    requires t' == Insert(t, key, value)
    ensures Valid(t')
    ensures Keys(t') == Keys(t) + {key}
    ensures Bindings(t') == Bindings(t) + {(key, value)}
  {
    InsertKeys(t, key, value);
    InsertBindings(t, key, value);
    InsertShape(t, key, value);
    assert key !in Keys(t) by { KeyAtSlotHead(t, key); }
    assert |Keys(t')| == |Keys(t)| + 1;
  }

  /** Inserting into an empty slot keeps every chain short and every node
      in its own slot with its own hash. */
  lemma InsertShape(t: StrHash, key: CString, value: Ptr)
    requires Valid(t)
    requires |t.table[Slot(t, key)]| == 0
    ensures var t' := Insert(t, key, value);
            && |t'.table| == |t.table|
            && (forall i | 0 <= i < |t'.table| :: |t'.table[i]| <= 1)
            && (forall i, n | 0 <= i < |t'.table| && n in t'.table[i] :: n.hash == Djb2(n.key) && Slot(t', n.key) == i)
  {
    var t' := Insert(t, key, value);
    forall i, n | 0 <= i < |t'.table| && n in t'.table[i]
      ensures n.hash == Djb2(n.key) && Slot(t', n.key) == i
    {
      if i != Slot(t, key) {
        assert n in t.table[i];
      }
    }
  }

  lemma InsertKeys(t: StrHash, key: CString, value: Ptr)
    requires Valid(t)
    requires |t.table[Slot(t, key)]| == 0
    ensures Keys(Insert(t, key, value)) == Keys(t) + {key}
  {
    var t' := Insert(t, key, value);
    var b := Slot(t, key);
    assert Node(Djb2(key), key, value) in t'.table[b];
    forall k | k in Keys(t') ensures k in Keys(t) + {key} {
      var i, m :| 0 <= i < |t'.table| && m in t'.table[i] && m.key == k;
      if i != b { assert m in t.table[i]; }
    }
    forall k | k in Keys(t) + {key} ensures k in Keys(t') {
      if k != key {
        var i, m :| 0 <= i < |t.table| && m in t.table[i] && m.key == k;
        assert m in t'.table[i];
      }
    }
  }

  lemma InsertBindings(t: StrHash, key: CString, value: Ptr)
    requires Valid(t)
    requires |t.table[Slot(t, key)]| == 0
    ensures Bindings(Insert(t, key, value)) == Bindings(t) + {(key, value)}
  {
    var t' := Insert(t, key, value);
    var b := Slot(t, key);
    assert Node(Djb2(key), key, value) in t'.table[b];
    forall p | p in Bindings(t') ensures p in Bindings(t) + {(key, value)} {
      var i, m :| 0 <= i < |t'.table| && m in t'.table[i] && (m.key, m.value) == p;
      if i != b { assert m in t.table[i]; }
    }
    forall p | p in Bindings(t) + {(key, value)} ensures p in Bindings(t') {
      if p != (key, value) {
        var i, m :| 0 <= i < |t.table| && m in t.table[i] && (m.key, m.value) == p;
        assert m in t'.table[i];
      }
    }
  }

  /** `strhash_haskey`. */
  function HasKey(t: StrHash, key: CString): (r: Run<bool>)
    requires Valid(t)
    ensures r.Spins? <==> Collides(t, key)
    ensures r.Done? ==> (r.value <==> key in Keys(t))
  {
    SearchMeaning(t, key);
    match Search(t, key)
    case Stuck => Spins
    case Hit(_) => Done(true)
    case Empty => Done(false)
  }

  /** `strhash_get`: NULL both for an absent key and for a stored NULL. */
  function Get(t: StrHash, key: CString): (r: Run<Ptr>)
    requires Valid(t)
    ensures r.Spins? <==> Collides(t, key)
    ensures r.Done? && key in Keys(t) ==> (key, r.value) in Bindings(t)
    ensures r.Done? && key !in Keys(t) ==> r.value == Null
  {
    SearchMeaning(t, key);
    match Search(t, key)
    case Stuck => Spins
    case Hit(n) => Done(n.value)
    case Empty => Done(Null)
  }

  /** A key just added is found again, with the value it was added with. */
  lemma AddThenLookup(t: StrHash, key: CString, value: Ptr)
    requires Valid(t)
    requires key !in Keys(t) && !Collides(t, key)
    ensures Add(t, key, value, true).Done?
    ensures HasKey(Add(t, key, value, true).value.0, key) == Done(true)
    ensures Get(Add(t, key, value, true).value.0, key) == Done(value)
  {
    var t' := Add(t, key, value, true).value.0;
    assert key in Keys(t');
    KeyAtSlotHead(t', key);
    SearchMeaning(t', key);
  }

  /** Adding a present key again neither overwrites nor counts it. */
  lemma AddNeverOverwrites(t: StrHash, key: CString, v1: Ptr, v2: Ptr)
    requires Valid(t)
    requires key !in Keys(t) && !Collides(t, key)
    ensures var t' := Add(t, key, v1, true).value.0;
            Add(t', key, v2, true) == Done((t', v1))
  {
    var t' := Add(t, key, v1, true).value.0;
    assert key in Keys(t');
    KeyAtSlotHead(t', key);
    SearchMeaning(t', key);
  }

  /** A stored NULL cannot be told apart: `get` answers NULL for it as for
      an absent key, and `add` returns NULL for it as for a failed
      allocation. Hence the trust cache stores a non-NULL sigil. */
  lemma StoredNullLooksAbsent(t: StrHash, key: CString)
    requires Valid(t)
    requires key !in Keys(t) && !Collides(t, key)
    ensures Get(t, key) == Done(Null)
    ensures Add(t, key, Null, true) == Done((Add(t, key, Null, true).value.0, Null))
    ensures Add(t, key, Null, false) == Done((t, Null))
    ensures Get(Add(t, key, Null, true).value.0, key) == Done(Null)
  {
    AddThenLookup(t, key, Null);
  }

  /** The search defect is reachable: in a one-slot table holding "a",
      asking for "b" never returns. */
  lemma CollisionSpins()
    ensures Init(1, true).Some?
    ensures var t := Init(1, true).value;
            var a := Add(t, "a", Addr(1), true);
            a.Done? && HasKey(a.value.0, "b") == Spins
  {
    var t := Init(1, true).value;
    assert !Collides(t, "a");
    var t' := Add(t, "a", Addr(1), true).value.0;
    assert "a" in Keys(t');
    assert Slot(t', "a") == 0 && Slot(t', "b") == 0;
    assert Collides(t', "b");
  }
}

=== FILE: wrappers.dfy ===
/** Optional values: the model's stand-in for a C pointer that may be NULL. */
module Wrappers {

  datatype Option<+T> = None | Some(value: T)
}

/** Values shared by the C sources: opaque pointers and errno codes. */
module CTypes {

  /** An opaque `void *` or function pointer: NULL or some address. */
  datatype Ptr = Null | Addr(addr: nat)

  /** errno values of the Linux C library. */
  const ENOMEM: int := 12
  const EINVAL: int := 22
}
